=== FILE: README.md ===
# Chinese conversation tutor: a Dafny model of its client and server logic

The application is a Chinese-language conversation tutor with three parts:

- a React Native client built on one reducer-backed store, with hooks for conversation and recording and services for speech capture and speech playback;
- an older browser client (`app.js`);
- a Flask backend (`app.py`) that wraps a language model.

This project models the logic of all three as pure Dafny functions over immutable records and proves properties about them.

- **Modelling approach.** Each operation is a transition. Everything the program cannot decide itself is an input: a network answer, a rejected native call, the confirmation dialog, the clock, or the model's text. Side effects come out as an ordered trace. In the React Native hooks the trace holds store dispatches, transport calls with their arguments, speech requests and scheduled timers. Replaying a trace through the reducer gives the state afterwards.
- **Web client requests.** Each request is split at its `await` into a begin part and a complete part. Other events can then be placed in between, as the browser's event loop allows.
- **Backend.** The language model and `json.loads` are uninterpreted inputs. Request validation, the history window, English-word detection and post-processing follow the code. There are three exceptions, listed under "## Left out": Python's Unicode `\w` is approximated by a table, a request body that is not JSON is not modelled, and a history that is not a list of records is not modelled.

Modules, one per source file:

| file | module | models |
|---|---|---|
| `wrappers.dfy` | `Wrappers` | `Option` |
| `strings.dfy` | `Strings` | JavaScript `\s`/`trim`, Python `isspace`/`strip`, ASCII lower-casing, substring search, first line, join |
| `message_types.dfy` | `MessageTypes` | `types/message.types.ts`; the "most recent AI message" search |
| `chinese_detector.dfy` | `ChineseDetector` | `utils/chineseDetector.ts` |
| `app_context.dfy` | `AppContext` | `context/AppContext.tsx` (state, actions, reducer) |
| `text_to_speech.dfy` | `TextToSpeech` | `services/textToSpeech.ts` |
| `speech_recognition.dfy` | `SpeechRecognition` | `services/speechRecognition.ts` |
| `use_conversation.dfy` | `UseConversation` | `hooks/useConversation.ts` |
| `use_voice_recording.dfy` | `UseVoiceRecording` | `hooks/useVoiceRecording.ts` |
| `web_client.dfy` | `WebClient` | `app.js` without the DOM |
| `interjections.dfy` | `Interjections` | `_detect_english_interjections` in `app.py` |
| `backend.dfy` | `Backend` | the rest of `app.py`'s logic |
| `history_contract.dfy` | `HistoryContract` | what the backend does with each client's history |

Results worth knowing:

- **The React Native client loses the latest prior turn.** The backend builds its prompt from all history entries but the last, because it expects the client to have appended the current message already. The web client does append first. The React Native client sends the history as it was before the append, so the backend silently drops that client's most recent prior turn. See `HistoryContract.NativeClientDropsLatestTurn` and `HistoryContract.NativeFirstMessageLosesTopic`.
- **React Native `stopRecording` does not send.** It only stops recognition; the transcript waits in `recordedMessage`. Sending lives in the microphone button's release handler, which calls `sendMessage` after `stopRecording` (`MicrophoneButton.tsx`, lines 51-64). That handler never gets that far: it returns at once because `isAvailable` is undefined (see "## Left out").
- **Stale correction clears are not cancelled.** A correction's clear timer is never cancelled, so a stale clear removes a newer correction.
- **The web client can lose a recorded message.** `sendRecordedMessage` clears the recorded message even when the processing guard ignored the send, so that message is lost.
- **The web topic call has no guard.** The web client's random-topic call ignores the processing flag, so a topic can land between a user message and its reply.
- **The two Chinese tests differ.** The web client's "contains Chinese" test misses CJK Extension A, which the React Native test covers.

## Model

| member | source | states |
|---|---|---|
| MessageTypes.LastAiIndex | ChineseLanguageApp/src/hooks/useConversation.ts:137-139 | The most recent AI message is found, or none is reported exactly when the history holds no AI message; no AI message follows the one found |
| AppContext.InitialState | ChineseLanguageApp/src/context/AppContext.tsx:25-32 | The store starts with an empty history, no correction, not processing, auto-speak on, an empty recorded message and not recording |
| AppContext.Reduce | ChineseLanguageApp/src/context/AppContext.tsx:41-89 | `ADD_MESSAGE` makes the payload the new last entry; each other field changes only under its own action and takes the payload; toggling negates auto-speak; a clear empties history and correction; history only grows except on a clear |
| AppContext.ReduceAllAppend | ChineseLanguageApp/src/context/AppContext.tsx:41-89 | Reducing two batches of actions in turn equals reducing their concatenation |
| AppContext.HistoryAppendOnly | ChineseLanguageApp/src/context/AppContext.tsx:41-89 | After any sequence of actions without a clear, the old history is a prefix of the new one |
| AppContext.ToggleTwice | ChineseLanguageApp/src/context/AppContext.tsx:61-65 | Toggling auto-speak twice is the identity on the whole state |
| AppContext.ClearIdempotent | ChineseLanguageApp/src/context/AppContext.tsx:79-84 | A clear is idempotent and keeps processing, auto-speak, the recorded message and recording |
| ChineseDetector.ContainsChinese | ChineseLanguageApp/src/utils/chineseDetector.ts:6-10 | True iff some character is in U+4E00..U+9FFF or U+3400..U+4DBF |
| ChineseDetector.KeptHasNoDeleted | ChineseLanguageApp/src/utils/chineseDetector.ts:17-21 | The reference filter leaves no character of the deleted class |
| ChineseDetector.KeptMembers | ChineseLanguageApp/src/utils/chineseDetector.ts:17-21 | A character survives the filter iff it occurs in the input and is outside the class |
| ChineseDetector.KeptSkipsRun | ChineseLanguageApp/src/utils/chineseDetector.ts:19 | A leading run of class characters contributes nothing to the filtered text |
| ChineseDetector.ReplaceRunsIsKept | ChineseLanguageApp/src/utils/chineseDetector.ts:19 | The global replace of maximal class runs equals deleting each class character with order preserved |
| ChineseDetector.ExtractChinese | ChineseLanguageApp/src/utils/chineseDetector.ts:17-21 | `extractChinese` equals the order-preserving reference filter, the trailing trim has nothing to remove, no class character remains and the result is never longer |
| ChineseDetector.KeptIdempotent | ChineseLanguageApp/src/utils/chineseDetector.ts:17-21 | Filtering twice is filtering once |
| ChineseDetector.ExtractChineseIdempotent | ChineseLanguageApp/src/utils/chineseDetector.ts:17-21 | `extractChinese` is idempotent |
| ChineseDetector.ExtractChineseKeepsOutsiders | ChineseLanguageApp/src/utils/chineseDetector.ts:19 | Any character outside the class, such as full-width punctuation, is in the output iff it is in the input |
| ChineseDetector.ExtractChineseKeepsChinese | ChineseLanguageApp/src/utils/chineseDetector.ts:6-21 | Text that contains Chinese still contains Chinese after filtering |
| ChineseDetector.KeptNoop | ChineseLanguageApp/src/utils/chineseDetector.ts:17-21 | Text with no class character passes through unchanged |
| ChineseDetector.ExtractChineseExample | ChineseLanguageApp/src/utils/chineseDetector.ts:17-21 | "你好，世界！" is returned unchanged |
| Strings.Trim | ChineseLanguageApp/src/utils/chineseDetector.ts:20 | Trimming returns the slice between the outermost characters outside the set; everything cut is in the set; the result is empty iff every character is |
| Strings.OrElse | ChineseLanguageApp/src/services/speechRecognition.ts:195 | JavaScript's logical OR with a string field on the left: the field when present and non-empty, otherwise the right operand |
| Strings.FirstLine | app.py:112-114 | `split('\n')[0]` is the longest prefix without a line break, and it is followed by one unless it is the whole text |
| TextToSpeech.Speak | ChineseLanguageApp/src/services/textToSpeech.ts:15-39 | No engine call iff the filtered text is empty; otherwise `stop` comes first, then at most one `speak` of exactly `extractChinese(text)` in `zh-CN` at the current rate; the `speak` happens iff `stop` resolves, and nothing is thrown |
| TextToSpeech.Stop | ChineseLanguageApp/src/services/textToSpeech.ts:44-50 | One engine `stop`, whose failure is swallowed |
| TextToSpeech.SetRate | ChineseLanguageApp/src/services/textToSpeech.ts:56-58 | The stored rate becomes the one set, whatever it was before |
| TextToSpeech.SpeakUsesLatestRate | ChineseLanguageApp/src/services/textToSpeech.ts:56-58 | The service starts at rate 0.8, and after `setRate(r)` the next utterance uses `r` |
| SpeechRecognition.StartRecording | ChineseLanguageApp/src/services/speechRecognition.ts:49-81 | Unavailable: only the fixed "not available" error and no state change. Available: callbacks registered, then the native calls in the order stop, cancel, start in `zh-CN`, cut off at the first rejection; the `zh-CN` start can only be the third event and a callback only the last. The event count is exact for each outcome. Success leaves it listening with no callback; any rejection reports "Failed to start recording: " plus the cause and leaves it not listening |
| SpeechRecognition.StopRecording | ChineseLanguageApp/src/services/speechRecognition.ts:86-99 | A no-op when not listening; otherwise one native stop, and not listening afterwards whether or not it rejects |
| SpeechRecognition.CancelRecording | ChineseLanguageApp/src/services/speechRecognition.ts:104-113 | Always one native cancel and never listening afterwards |
| SpeechRecognition.Destroy | ChineseLanguageApp/src/services/speechRecognition.ts:118-129 | When stop and cancel resolve, the module is destroyed and the service returns to its initial state; a rejection leaves the state unchanged; no callback is invoked |
| SpeechRecognition.OnSpeechResults | ChineseLanguageApp/src/services/speechRecognition.ts:151-162 | The transcript callback receives exactly `value[0]`, and only when `value` is non-empty and callbacks are registered |
| SpeechRecognition.OnSpeechPartialResults | ChineseLanguageApp/src/services/speechRecognition.ts:164-174 | Partial results change nothing and are never forwarded |
| SpeechRecognition.ErrorMessage | ChineseLanguageApp/src/services/speechRecognition.ts:180-197 | Codes "7", "6" and "5" give their fixed texts; any other code gives the generic prefix followed by the message, or the code when the message is absent or empty; no error object gives "Speech recognition failed" |
| SpeechRecognition.ErrorMessagesDistinguishable | ChineseLanguageApp/src/services/speechRecognition.ts:180-197 | None of the fixed messages starts with the generic prefix |
| SpeechRecognition.OnSpeechStart | ChineseLanguageApp/src/services/speechRecognition.ts:141-144 | The recogniser's start event marks the service listening and leaves the callbacks registered as they were |
| SpeechRecognition.OnSpeechEnd | ChineseLanguageApp/src/services/speechRecognition.ts:146-149 | The recogniser's end event marks the service not listening and leaves the callbacks registered as they were |
| SpeechRecognition.SpeechEventsAgreeWithService | ChineseLanguageApp/src/services/speechRecognition.ts:49-149 | The native start event after a successful start, and the end event after a stop or cancel, leave the state the service's own call produced |
| SpeechRecognition.OnSpeechError | ChineseLanguageApp/src/services/speechRecognition.ts:176-202 | Listening stops, and the error callback gets exactly the mapped message iff callbacks are registered |
| UseConversation.RunAppend | ChineseLanguageApp/src/context/AppContext.tsx:41-89 | Replaying a concatenated trace equals replaying its parts in turn |
| UseConversation.RunEffectsOnly | ChineseLanguageApp/src/hooks/useConversation.ts:48-77 | A trace of external calls alone leaves the store unchanged |
| UseConversation.SettleChatRun | ChineseLanguageApp/src/hooks/useConversation.ts:53-90 | Settling a chat appends exactly the reply or the fallback, and changes the correction only when the reply carries one |
| UseConversation.SendMessage | ChineseLanguageApp/src/hooks/useConversation.ts:18-96 | No step at all while processing or for blank text. Otherwise it appends the untrimmed user message, clears the recorded message and raises the flag before the one transport call, which carries the pre-append history. Then the reply or fallback message; on a correction its dispatch followed directly by one 10000 ms clear; then the speech iff auto-speak is on and the reply is non-empty; then the flag lowered. The trace length is exact, and no other effect appears. It ends with history grown by exactly user plus reply or fallback |
| UseConversation.SendMessageRun | ChineseLanguageApp/src/hooks/useConversation.ts:31-93 | The replayed store after an accepted send, stated field by field |
| UseConversation.SendMessageEffects | ChineseLanguageApp/src/hooks/useConversation.ts:48-77 | The transport call occurs only once, at position 4; the clear is scheduled iff a correction arrives; speech occurs iff auto-speak and a non-empty reply |
| UseConversation.GetRandomTopic | ChineseLanguageApp/src/hooks/useConversation.ts:101-130 | A no-op while processing. Otherwise one topic request between raising and lowering the flag; exactly one AI message with the topic and no translation on success, none on failure; spoken right after it iff it succeeds with auto-speak on. The trace length is exact, and the topic request and that speech are its only effects |
| UseConversation.GetRandomTopicRun | ChineseLanguageApp/src/hooks/useConversation.ts:106-129 | The replayed store after a topic request, stated field by field |
| UseConversation.RepeatLastMessage | ChineseLanguageApp/src/hooks/useConversation.ts:135-144 | Never changes the store; no call iff there is no AI message; otherwise one speech request with the most recent AI message's text |
| UseConversation.ClearConversation | ChineseLanguageApp/src/hooks/useConversation.ts:149-151 | Empties history and correction; keeps processing, auto-speak, the recorded message and recording |
| UseConversation.ClearConversationIdempotent | ChineseLanguageApp/src/hooks/useConversation.ts:149-151 | Clearing a cleared conversation changes nothing |
| UseConversation.ToggleAutoSpeak | ChineseLanguageApp/src/hooks/useConversation.ts:156-158 | Flips auto-speak and nothing else |
| UseConversation.ToggleAutoSpeakTwice | ChineseLanguageApp/src/hooks/useConversation.ts:156-158 | Two toggles restore the store |
| UseConversation.CorrectionTimerFired | ChineseLanguageApp/src/hooks/useConversation.ts:69-71 | The scheduled clear removes whatever correction is current and nothing else |
| UseConversation.StaleClearDropsNewerCorrection | ChineseLanguageApp/src/hooks/useConversation.ts:65-72 | After two corrected replies the second correction is shown, and a clear firing then removes it. No step cancels a scheduled clear, so the first reply's clear is still pending |
| UseVoiceRecording.ReplayAppend | ChineseLanguageApp/src/hooks/useVoiceRecording.ts:24-56 | Replaying a concatenated hook trace equals replaying its parts in turn |
| UseVoiceRecording.InterpretNatives | ChineseLanguageApp/src/hooks/useVoiceRecording.ts:28-38 | Native recogniser calls alone leave the hook's state unchanged |
| UseVoiceRecording.NativesThenNotify | ChineseLanguageApp/src/hooks/useVoiceRecording.ts:28-38 | Native calls followed by one callback act as that callback alone |
| UseVoiceRecording.StartRecording | ChineseLanguageApp/src/hooks/useVoiceRecording.ts:24-39 | The error is cleared and recording switched on before any native call. Success keeps recording on with no error; unavailable or failed starts store the service's message and switch recording off. History and recorded message are untouched |
| UseVoiceRecording.StartEventsReplay | ChineseLanguageApp/src/hooks/useVoiceRecording.ts:28-38 | The callbacks' effect on the hook for each start outcome |
| UseVoiceRecording.SpeechResults | ChineseLanguageApp/src/hooks/useVoiceRecording.ts:30-32 | A transcript replaces the recorded message rather than appending to it; without a delivered transcript nothing changes |
| UseVoiceRecording.SpeechError | ChineseLanguageApp/src/hooks/useVoiceRecording.ts:34-37 | A recogniser error stores its mapped message and switches recording off, leaving history and recorded message unchanged |
| UseVoiceRecording.StopRecording | ChineseLanguageApp/src/hooks/useVoiceRecording.ts:44-47 | Recording ends off and the service stops listening; nothing is sent, and recorded message, history and error are unchanged |
| UseVoiceRecording.CancelRecording | ChineseLanguageApp/src/hooks/useVoiceRecording.ts:52-56 | Recording ends off and the recorded message is emptied; history is unchanged |
| UseVoiceRecording.RecordThenStopKeepsTranscript | ChineseLanguageApp/src/hooks/useVoiceRecording.ts:24-47 | Start, hear "你好", stop: the transcript waits unsent and history is unchanged |
| UseVoiceRecording.RecordThenCancelDiscards | ChineseLanguageApp/src/hooks/useVoiceRecording.ts:24-56 | Start, hear "测试", cancel: history is unchanged, the transcript is gone and recording is off |
| WebClient.WebContainsChineseNarrower | app.js:330-333 | The web test implies the React Native test, and U+3400 separates them |
| WebClient.ReplayButton | app.js:232-244 | An AI message gets a replay button iff it holds a character in U+4E00..U+9FFF; clicking it is `speakText` of that message |
| WebClient.ReplayButtonSpeaks | app.js:232-244 | With speech synthesis present, a replay button's click always cancels pending speech and speaks the filtered message, which is never empty |
| WebClient.DisplayTime | app.js:324 | 15000 ms exactly for `interjection_help`, 10000 ms otherwise |
| WebClient.SpeakText | app.js:335-358 | No call without synthesis support or when the filtered text is empty; otherwise cancel, then one utterance of `extractChinese(text)` in `zh-CN` at rate 0.8 and pitch 1 |
| WebClient.SpeakLastMessage | app.js:360-365 | State unchanged; no effect iff there is no AI message or `speakText` of it does nothing; otherwise exactly `speakText` of the most recent AI entry |
| WebClient.StartListening | app.js:125-131 | A no-op unless a recogniser exists and it is not listening; otherwise starts listening with an empty final transcript |
| WebClient.StopListening | app.js:133-138 | With a recogniser that is listening, exactly one recognition stop; otherwise no effect; state unchanged |
| WebClient.FinalsIgnoresInterim | app.js:88-95 | Results that are all interim add nothing to the final transcript |
| WebClient.FinalsAppend | app.js:88-95 | The transcript contributed by consecutive result runs is their concatenation |
| WebClient.OnResult | app.js:85-98 | The loop appends, from `resultIndex` on and in order, each final result's text plus one space, as the reference `Finals`; an index past the end changes nothing |
| WebClient.OnEnd | app.js:107-118 | Listening stops; a non-blank transcript is filed trimmed as the recorded message and the transcript is emptied; a blank one leaves both unchanged |
| WebClient.OnError | app.js:100-105 | Only the listening flag is cleared |
| WebClient.BeginUserMessage | app.js:148-172 | Ignored while processing; otherwise raises the flag and pushes the user message before the request, which carries the history already ending with it |
| WebClient.CompleteUserMessage | app.js:174-210 | Exactly one AI message: the reply when the status is OK with no `error` and a truthy `response`, else the fixed fallback. A correction first shows the panel, then schedules its hiding; without one the panel is untouched. With auto-speak on, the effects end with `speakText` of the reply; with it off, nothing is spoken. No other effect occurs, since the list's length is exactly those parts. An `error` counts only when truthy. The flag is lowered |
| WebClient.ProcessUserMessage | app.js:148-210 | A no-op while processing; otherwise history grows by the user message then one AI message, the request is the first effect and the flag ends down |
| WebClient.SendTextMessage | app.js:140-146 | Blank input does nothing; otherwise the trimmed text is submitted and the box emptied even when the guard ignores the submission |
| WebClient.SendRecordedMessage | app.js:443-447 | Nothing without a recorded message; otherwise it is submitted and then cleared, and lost when a request is in flight |
| WebClient.ClearRecordedMessage | app.js:455-458 | Only the recorded message is emptied |
| WebClient.RedoRecording | app.js:450-453 | The recorded message is emptied, then behaves exactly as `startListening` |
| WebClient.BeginRandomTopic | app.js:390-398 | One topic request, with no processing guard and no state change |
| WebClient.CompleteRandomTopic | app.js:400-423 | Exactly one AI message: the topic with its translation when the response is OK with no truthy `error`, else the fixed weather topic. The effects are exactly `speakText` of the topic when auto-speak is on and the topic is truthy, and none otherwise. Nothing else changes |
| WebClient.ClearConversation | app.js:367-388 | Unconfirmed changes nothing; confirmed empties the history and hides the correction panel |
| WebClient.HideCorrectionFired | app.js:325-327 | The panel is hidden and nothing else changes |
| WebClient.TopicInterleavesWithChat | app.js:390-423 | A topic arriving during a chat request lands between the user message and its reply |
| WebClient.RecordReviewSend | app.js:85-118 | Listen, collect final results, end, send: the trimmed transcript is submitted as the user's message and the recorded message is cleared |
| WebClient.RedoDiscardsTranscript | app.js:450-453 | Redo drops the transcript and starts listening again |
| Interjections.BoundedRunUnique | app.py:173 | A bounded letter run has only one possible end for a given start |
| Interjections.Backtrack | app.py:173 | Backtracking only ends a match at a word boundary inside the greedy letter run |
| Interjections.BacktrackInsideRun | app.py:173 | Giving back letters never finds a boundary inside a letter run |
| Interjections.MatchAt | app.py:173 | One attempt at `\b[a-zA-Z]+\b` succeeds exactly at the start of a bounded run and ends where that run ends |
| Interjections.MatchAtIsRun | app.py:173 | The match-attempt characterisation, proved from the greedy run length |
| Interjections.FindAllSound | app.py:173 | Every span `findall` reports is a bounded run at or after the start position |
| Interjections.FindAllOrdered | app.py:173 | Reported spans are in increasing order and do not overlap |
| Interjections.FindAllComplete | app.py:173 | Every bounded run at or after the start position is reported |
| Interjections.SpansCharacterised | app.py:173 | The reported spans are exactly the bounded runs, in order |
| Interjections.SpanWords | app.py:173 | The reported words are the text of the spans, one per span |
| Interjections.DetectEnglishInterjections | app.py:168-181 | None iff there is no bounded ASCII-letter run; otherwise word k is the text of the k-th reported span, a bounded run, and the spans come in text order; the original text is returned with them |
| Interjections.GluedWordNotDetected | app.py:173 | "我喜欢apple" yields nothing: ideographs are word characters |
| Interjections.SpacedWordDetected | app.py:173 | "我喜欢 apple" yields a detection |
| Backend.EntryToPrompt | app.py:128-132 | `user` maps to the user role and `ai` to the assistant role; other senders are dropped; a missing key raises |
| Backend.MapHistory | app.py:128-132 | The loop raises iff some entry in the window raises; otherwise it gives at most one message per entry and never the system role |
| Backend.MapHistoryWellFormed | app.py:128-132 | With well-formed `user`/`ai` entries the mapping is one to one and order-preserving |
| Backend.LastN | app.py:128 | `xs[-n:]` is the suffix of length min(n, len), and the whole list for n = 0 |
| Backend.DropLast | app.py:128 | `xs[:-1]` removes exactly the last element, and leaves an empty list empty |
| Backend.ConversationPrompt | app.py:124-135 | System prompt, then the mapped last 8 entries of `history[:-1]`, then the current message: between 2 and 10 messages |
| Backend.ProcessMessagePrompt | app.py:50-58 | System prompt, then the mapped last 10 entries, then the current message: between 2 and 12 messages |
| Backend.FallbackResponse | app.py:110-120 | A multi-line text is cut to its first line unless that line is empty; single-line text is kept; the translation is fixed and no error is flagged |
| Backend.FallbackIsPrefix | app.py:110-120 | The fallback answer is a prefix of the text without a line break, or the whole text when it starts with one |
| Backend.ProcessAnswer | app.py:94-108 | Parsed JSON is returned as is; unparsable text gives exactly `_fallback_response` of the stripped answer, flagged without errors; a raising model call gives the fixed apology |
| Backend.ProcessMessage | app.py:48-108 | A history entry among the last ten missing a key, which raises while the unused message list is built, gives the fixed apology; otherwise the model is asked with the analysis prompt as system message and the user's text, and its answer is processed as `ProcessAnswer` states. The system prompt feeds only the discarded list, so it is not a parameter |
| Backend.ProcessMessageIgnoresHistory | app.py:48-92 | Two histories that both build give the same reply: the built list never reaches the model call |
| Backend.NullEqualityImpliesContainment | app.py:252 | The `== 'null'` test is subsumed by the containment test |
| Backend.TypedCorrection | app.py:255-259 | A dictionary keeps a truthy `type` and otherwise gets `grammar_correction`, with every other key unchanged; a non-dictionary gives `None` |
| Backend.AnalyzeForCorrections | app.py:183-265 | The interjection path wins whenever English words are detected, returning the parsed answer or the `interjection_help` fallback; otherwise an answer containing "null" (case-insensitive) or an unparsable one gives `None`, and a parsed one is typed; an exception gives `None` |
| Backend.GrammarPathTyped | app.py:228-261 | Outside the interjection path a correction is `None` or a dictionary with a truthy `type` |
| Backend.InterjectionFallbackNamesWords | app.py:220-226 | The interjection fallback has type `interjection_help` and lists exactly the detected words |
| Backend.Translation | app.py:267-282 | A failed translation call gives "Translation not available"; otherwise the stripped answer |
| Backend.GetConversationResponse | app.py:122-166 | An exception from the history window or the chat call gives the fixed bilingual reply without a correction key; otherwise the stripped answer, its translation ("Translation not available" on failure) and the correction of the user's message |
| Backend.Chat | app.py:370-390 | 400 with "Message is required" iff the message is missing or blank after stripping; 500 iff the body is not an object or the message is not a string; otherwise 200 with the conversation reply for the stripped message |
| Backend.BlankMessageRejected | app.py:374-378 | A message of spaces and a missing message both get 400 |
| Backend.RandomTopic | app.py:284-358 | A failing topic call yields one of the five fixed pairs; otherwise the stripped topic and its translation |
| HistoryContract.ToEntry | app.js:268 | A client message becomes a history entry the backend maps to the matching role with the same text |
| HistoryContract.PromptOfClientHistory | app.py:124-135 | For a client-sent history, the prompt holds the last 8 messages before the final one |
| HistoryContract.WebClientKeepsPriorTurns | app.js:156-170 | The web client's request lets the model see up to 8 prior turns, the latest included |
| HistoryContract.NativeClientDropsLatestTurn | ChineseLanguageApp/src/hooks/useConversation.ts:48-51 | The React Native client's request loses its latest prior turn from the model's context |
| HistoryContract.NativeFirstMessageLosesTopic | app.py:126-128 | After an opening topic, the native client's first message reaches the model without the topic |
| HistoryContract.WebFirstMessageKeepsTopic | app.py:126-128 | After an opening topic, the web client's first message reaches the model with the topic |

## Left out

- Rendering and styling are not modelled: `HomeScreen`, `ControlBar`, `InputSection`, `MessageBubble`, `ConversationView` with its 100 ms scroll timer, `CorrectionPanel`, `LoadingSpinner`, `App`, and the DOM building in `app.js` (`addMessageToHistory`'s elements, `showCorrection`'s HTML, `showRecordedMessage`, loading indicator, service-worker registration). Dismissing a correction is the reducer's `SET_CORRECTION` with null, which is covered.
- `MicrophoneButton` is not modelled. It reads an `isAvailable` field that `useVoiceRecording` does not return (useVoiceRecording.ts:58-65), so its press handlers return early.
- React closure semantics are not modelled: each hook operation reads the store as it is when called, rather than as a stale render snapshot.
- HTTP client setup (`api.ts`, `api.config.ts`) is not modelled: the transport is a success or failure input. Permissions (`permissions.ts`) are platform I/O.
- Native speech libraries, the browser speech APIs and voice selection (app.js:350-354) are not modelled: native calls appear in the trace, and their resolve or reject outcome is an input. Speech rate and pitch are opaque reals.
- Timers and clocks are not modelled directly: a scheduled clear or hide is an effect, its firing is a separate transition, and timestamps are opaque inputs.
- The language-model calls, prompt texts, the system prompt (a parameter), `json.loads` (an uninterpreted function), Flask routing, static files, the health endpoint and the environment check are not modelled. The random topic endpoint's own 500 branch (app.py:397-403) is not modelled: its callee catches every exception.
- `Backend.Chat`: a request body that is not valid JSON is not modelled; `request.get_json` errors are framework behaviour. A `conversation_history` that is not a list is also not modelled; its entries are records whose keys may be missing.
- `Backend.Truthy`: JSON numbers are reals, so integer and float zero are treated alike.
- `Interjections.IsWordChar`: Python's Unicode `\w` is approximated by a table. The table covers ASCII, Latin-1 and Latin Extended letters and numerals, U+3007, the ideographs U+3400..U+4DBF and U+4E00..U+9FFF, kana, Hangul syllables and full-width alphanumerics. Every other character counts as a non-word character. That includes some characters Python counts as word characters: Extension B and later (from U+20000), the compatibility ideographs (U+F900..U+FAFF), U+3005 and the prolonged sound mark U+30FC.
- Strings are sequences of Unicode scalar values, while the JavaScript sources index UTF-16 code units. No character class here contains a surrogate, so filtering and trimming agree.
- `WebClient.OnResult`: the interim transcript is shown on screen only and is not modelled.
- The speech callbacks are modelled as staying bound to the first `SpeechRecognitionService`. `useVoiceRecording` constructs a new service on every render (useVoiceRecording.ts:12), and each constructor rebinds the global `Voice` handlers to an instance with no callbacks (speechRecognition.ts:15-28). Re-render effects are not modelled.
- The wording of `process_message`'s analysis prompt (app.py:60-82) is an input; only the fact that it is the system message, with the user's text after it, is modelled.
- Voice recording's permission prompts and `getAvailableVoices` are not modelled.
- `test_app.py` and `test_azure.py` are live-server scripts. Only their empty-message and missing-message expectations are reflected, in `Backend.BlankMessageRejected`.

=== FILE: app_context.dfy ===
/** The React Native client's single state store: `AppState`, the action
    union and the pure reducer `appReducer`. */
module AppContext {
  import opened Wrappers
  import opened MessageTypes

  datatype AppState = AppState(
    history: seq<Message>,
    currentCorrection: Option<Correction>,
    isProcessing: bool,
    autoSpeak: bool,
    recordedMessage: string,
    isRecording: bool)

  datatype Action =
    | AddMessage(message: Message)
    | SetCorrection(correction: Option<Correction>)
    | SetProcessing(processing: bool)
    | ToggleAutoSpeak
    | SetRecordedMessage(recorded: string)
    | SetRecording(recording: bool)
    | ClearConversation

  /** No request in flight, not recording, nothing pending and no
      correction on screen. */
  predicate Idle(s: AppState) {
    && s.currentCorrection.None?
    && !s.isProcessing
    && s.recordedMessage == []
    && !s.isRecording
  }

  /** The store's starting value. */
  function InitialState(): (s: AppState)
    ensures Idle(s) && s.history == [] && s.autoSpeak
  {
    AppState([], None, false, true, [], false)
  }

  /** `appReducer`.  Each field changes only under its own action, history
      only grows except on a clear, and an added message becomes the last
      entry. */
  function Reduce(s: AppState, a: Action): (r: AppState)
    ensures !a.ClearConversation? ==> s.history <= r.history
    ensures a.AddMessage? ==> |r.history| == |s.history| + 1 && r.history[|s.history|] == a.message
    ensures !a.AddMessage? && !a.ClearConversation? ==> r.history == s.history
    ensures a.ClearConversation? ==> r.history == [] && r.currentCorrection.None?
    ensures r.currentCorrection != s.currentCorrection ==> a.SetCorrection? || a.ClearConversation?
    ensures a.SetCorrection? ==> r.currentCorrection == a.correction
    ensures r.isProcessing != s.isProcessing ==> a.SetProcessing?
    ensures a.SetProcessing? ==> r.isProcessing == a.processing
    ensures r.autoSpeak != s.autoSpeak <==> a.ToggleAutoSpeak?
    ensures r.recordedMessage != s.recordedMessage ==> a.SetRecordedMessage?
    ensures a.SetRecordedMessage? ==> r.recordedMessage == a.recorded
    ensures r.isRecording != s.isRecording ==> a.SetRecording?
    ensures a.SetRecording? ==> r.isRecording == a.recording
  {
    match a
    case AddMessage(m) => s.(history := s.history + [m])
    case SetCorrection(c) => s.(currentCorrection := c)
    case SetProcessing(b) => s.(isProcessing := b)
    case ToggleAutoSpeak => s.(autoSpeak := !s.autoSpeak)
    case SetRecordedMessage(t) => s.(recordedMessage := t)
    case SetRecording(b) => s.(isRecording := b)
    case ClearConversation => s.(history := [], currentCorrection := None)
  }

  /** Applies actions in dispatch order. */
  function ReduceAll(s: AppState, actions: seq<Action>): AppState
    decreases |actions|
  {
    if actions == [] then s else ReduceAll(Reduce(s, actions[0]), actions[1..])
  }

  lemma {:induction false} ReduceAllAppend(s: AppState, a: seq<Action>, b: seq<Action>)
    ensures ReduceAll(s, a + b) == ReduceAll(ReduceAll(s, a), b)
    decreases |a|
  {
    if a != [] {
      assert (a + b)[1..] == a[1..] + b;
      ReduceAllAppend(Reduce(s, a[0]), a[1..], b);
    } else {
      assert a + b == b;
    }
  }

  /** Without a clear, the history only grows: the old history is a prefix
      of the new one after any sequence of actions. */
  lemma {:induction false} HistoryAppendOnly(s: AppState, actions: seq<Action>)
    requires forall i :: 0 <= i < |actions| ==> !actions[i].ClearConversation?
    ensures s.history <= ReduceAll(s, actions).history
    decreases |actions|
  {
    if actions != [] {
      HistoryAppendOnly(Reduce(s, actions[0]), actions[1..]);
    }
  }

  /** Toggling auto-speak twice restores the state. */
  lemma ToggleTwice(s: AppState)
    ensures Reduce(Reduce(s, ToggleAutoSpeak), ToggleAutoSpeak) == s
  {
  }

  /** Clearing is idempotent and leaves the flags and the pending transcript
      alone. */
  lemma ClearIdempotent(s: AppState)
    ensures Reduce(Reduce(s, ClearConversation), ClearConversation) == Reduce(s, ClearConversation)
    ensures var r := Reduce(s, ClearConversation);
            r.isProcessing == s.isProcessing && r.autoSpeak == s.autoSpeak
            && r.recordedMessage == s.recordedMessage && r.isRecording == s.isRecording
  {
  }
}

=== FILE: backend.dfy ===
/** The pure logic of the Flask backend (`app.py`): request validation,
    the history window sent to the language model, post-processing of the
    model's answers and the fixed fallbacks.  Every call to the language
    model is an input (`LlmOutcome`: the content it returned, or an
    exception), and `json.loads` is an uninterpreted function passed in. */
module Backend {
  import opened Wrappers
  import opened Strings
  import opened Interjections

  /** A JSON value as `json.loads` returns it. */
  datatype Json =
    | JNull
    | JBool(b: bool)
    | JNumber(n: real)
    | JString(s: string)
    | JArray(items: seq<Json>)
    | JObject(fields: map<string, Json>)

  /** Python truthiness of a decoded value. */
  predicate Truthy(j: Json) {
    match j
    case JNull => false
    case JBool(b) => b
    case JNumber(n) => n != 0.0
    case JString(s) => s != []
    case JArray(items) => items != []
    case JObject(fields) => fields != map[]
  }

  datatype ParseOutcome = Parsed(value: Json) | ParseFailed

  /** One call to the chat-completions API: the message content, or an
      exception (which includes a missing content). */
  datatype LlmOutcome = Completed(content: string) | Raised

  // ---------------------------------------------------------------------
  // The history window

  /** An entry of `conversation_history` as the client sent it; a missing
      key is `None`. */
  datatype HistoryEntry = HistoryEntry(sender: Option<string>, message: Option<string>)

  datatype Role = System | UserRole | Assistant

  datatype PromptMessage = PromptMessage(role: Role, content: string)

  /** How one entry enters the prompt: `user` and `ai` entries map to the
      user and assistant roles, other senders are dropped, and a missing
      key raises. */
  datatype EntryPrompt = Include(m: PromptMessage) | Skip | KeyMissing

  function EntryToPrompt(e: HistoryEntry): (r: EntryPrompt)
    ensures r.KeyMissing? <==> e.sender.None? || (e.sender.value in {"user", "ai"} && e.message.None?)
    ensures r.Skip? <==> e.sender.Some? && e.sender.value !in {"user", "ai"}
    ensures r.Include? ==> r.m.content == e.message.value
                           && (r.m.role == UserRole <==> e.sender.value == "user")
                           && (r.m.role == Assistant <==> e.sender.value == "ai")
  {
    match e.sender
    case None => KeyMissing
    case Some(sender) =>
      if sender == "user" then (if e.message.None? then KeyMissing else Include(PromptMessage(UserRole, e.message.value)))
      else if sender == "ai" then (if e.message.None? then KeyMissing else Include(PromptMessage(Assistant, e.message.value)))
      else Skip
  }

  /** The loop over a window of history: `None` when some entry raises. */
  function MapHistory(h: seq<HistoryEntry>): (r: Option<seq<PromptMessage>>)
    ensures r.None? <==> exists k :: 0 <= k < |h| && EntryToPrompt(h[k]).KeyMissing?
    ensures r.Some? ==> |r.value| <= |h| && forall k :: 0 <= k < |r.value| ==> r.value[k].role != System
    decreases |h|
  {
    if h == [] then Some([])
    else
      var last := h[|h| - 1];
      match MapHistory(h[..|h| - 1])
      case None => assert h[..|h| - 1] <= h; None
      case Some(prefix) =>
        match EntryToPrompt(last)
        case KeyMissing => None
        case Skip => Some(prefix)
        case Include(m) => Some(prefix + [m])
  }

  /** With only `user`/`ai` entries and every message present, the window
      maps one to one and in order. */
  lemma {:induction false} MapHistoryWellFormed(h: seq<HistoryEntry>)
    requires forall k :: 0 <= k < |h| ==> EntryToPrompt(h[k]).Include?
    ensures MapHistory(h).Some? && |MapHistory(h).value| == |h|
    ensures forall k :: 0 <= k < |h| ==> MapHistory(h).value[k] == EntryToPrompt(h[k]).m
    decreases |h|
  {
    if h != [] {
      MapHistoryWellFormed(h[..|h| - 1]);
    }
  }

  /** Python's `xs[-n:]`: the last `n` elements, all of them when there
      are fewer, and (since `-0` is `0`) the whole list when `n` is 0. */
  function LastN<T>(xs: seq<T>, n: nat): (r: seq<T>)
    ensures |r| <= |xs| && r == xs[|xs| - |r|..]
    ensures n == 0 || |xs| <= n ==> r == xs
    ensures 0 < n < |xs| ==> |r| == n
  {
    if n == 0 || |xs| <= n then xs else xs[|xs| - n..]
  }

  /** Python's `xs[:-1]`. */
  function DropLast<T>(xs: seq<T>): (r: seq<T>)
    ensures xs == [] ==> r == []
    ensures xs != [] ==> |r| == |xs| - 1 && xs == r + [xs[|xs| - 1]]
  {
    if xs == [] then [] else xs[..|xs| - 1]
  }

  /** The prompt of `get_conversation_response`: the system prompt, the
      last eight entries before the final one, then the current message.
      `None` when an entry in that window raises. */
  function ConversationPrompt(system: string, history: seq<HistoryEntry>, user: string): (r: Option<seq<PromptMessage>>)
    ensures r.None? <==> MapHistory(LastN(DropLast(history), 8)).None?
    ensures r.Some? ==> 2 <= |r.value| <= 10
                        && r.value[0] == PromptMessage(System, system)
                        && r.value[|r.value| - 1] == PromptMessage(UserRole, user)
                        && r.value[1..|r.value| - 1] == MapHistory(LastN(DropLast(history), 8)).value
  {
    match MapHistory(LastN(DropLast(history), 8))
    case None => None
    case Some(context) => Some([PromptMessage(System, system)] + context + [PromptMessage(UserRole, user)])
  }

  /** The message list `process_message` builds: the same mapping over the
      last ten entries, final one included.  The model call that follows
      does not use it. */
  function ProcessMessagePrompt(system: string, history: seq<HistoryEntry>, user: string): (r: Option<seq<PromptMessage>>)
    ensures r.None? <==> MapHistory(LastN(history, 10)).None?
    ensures r.Some? ==> 2 <= |r.value| <= 12
                        && r.value[0] == PromptMessage(System, system)
                        && r.value[|r.value| - 1] == PromptMessage(UserRole, user)
                        && r.value[1..|r.value| - 1] == MapHistory(LastN(history, 10)).value
  {
    match MapHistory(LastN(history, 10))
    case None => None
    case Some(context) => Some([PromptMessage(System, system)] + context + [PromptMessage(UserRole, user)])
  }

  // ---------------------------------------------------------------------
  // Replies

  const UnavailableResponse: string := "抱歉，我现在无法回应。请再试一次。"
  const UnavailableTranslation: string := "Sorry, I can't respond right now. Please try again."
  const UnderstoodTranslation: string := "I understand what you said. Let's continue our conversation!"
  const ContinueResponse: string := "很好！让我们继续对话。"
  const ContinueTranslation: string := "Great! Let's continue our conversation."
  const TranslationUnavailable: string := "Translation not available"

  /** A reply object with the three keys `process_message` returns. */
  datatype FixedReply = FixedReply(response: string, translation: string, hasErrors: bool)

  /** `_fallback_response`: a multi-line answer is cut to its first line
      unless that line is empty; the translation is fixed and no error is
      flagged. */
  function FallbackResponse(aiResponse: string): (r: FixedReply)
    ensures r.translation == UnderstoodTranslation && !r.hasErrors
    ensures '\n' !in aiResponse ==> r.response == aiResponse
    ensures '\n' in aiResponse && FirstLine(aiResponse) != [] ==>
              r.response == FirstLine(aiResponse) && |r.response| < |aiResponse|
    ensures '\n' in aiResponse && FirstLine(aiResponse) == [] ==> r.response == aiResponse
  {
    var chinese := if '\n' in aiResponse && FirstLine(aiResponse) != [] then FirstLine(aiResponse) else aiResponse;
    FixedReply(chinese, UnderstoodTranslation, false)
  }

  /** The fallback's answer is always a prefix of the model's text that
      holds no line break, or the whole text when it starts with one. */
  lemma FallbackIsPrefix(aiResponse: string)
    ensures var r := FallbackResponse(aiResponse).response;
            |r| <= |aiResponse| && r == aiResponse[..|r|]
            && ('\n' !in r || (aiResponse != [] && aiResponse[0] == '\n' && r == aiResponse))
  {
    var l := FirstLine(aiResponse);
    if '\n' in aiResponse && l == [] {
      assert aiResponse[0] == '\n';
    }
  }

  datatype ProcessReply = ParsedReply(value: Json) | Fixed(reply: FixedReply)

  /** The part of `process_message` after the model call: the stripped
      answer decoded as JSON, else the first-line fallback, and a fixed
      apology when the call raised. */
  function ProcessAnswer(llm: LlmOutcome, loads: string -> ParseOutcome): (r: ProcessReply)
    ensures llm.Raised? ==> r == Fixed(FixedReply(UnavailableResponse, UnavailableTranslation, false))
    ensures llm.Completed? && loads(PyStrip(llm.content)).Parsed? ==> r == ParsedReply(loads(PyStrip(llm.content)).value)
    ensures llm.Completed? && loads(PyStrip(llm.content)).ParseFailed? ==>
              r == Fixed(FallbackResponse(PyStrip(llm.content)))
              && r.reply.translation == UnderstoodTranslation && !r.reply.hasErrors
              && |r.reply.response| <= |PyStrip(llm.content)|
  {
    match llm
    case Raised => Fixed(FixedReply(UnavailableResponse, UnavailableTranslation, false))
    case Completed(content) =>
      var result := PyStrip(content);
      match loads(result)
      case Parsed(v) => ParsedReply(v)
      case ParseFailed => FallbackIsPrefix(result); Fixed(FallbackResponse(result))
  }

  /** The two messages `process_message` actually sends: the analysis
      prompt as the system message, then the user's text.  The analysis
      prompt is the source's fixed template with the user's text
      interpolated; its wording is an input here. */
  function AnalysisRequest(analysisPrompt: string, user: string): (r: seq<PromptMessage>)
    ensures |r| == 2 && r[0].role == System && r[1] == PromptMessage(UserRole, user)
  {
    [PromptMessage(System, analysisPrompt), PromptMessage(UserRole, user)]
  }

  /** Whether building `process_message`'s unused message list raises: an
      entry among the last ten misses a key. */
  predicate ProcessMessageRaises(history: seq<HistoryEntry>) {
    MapHistory(LastN(history, 10)).None?
  }

  /** `process_message` (not called by any endpoint).  It first builds a
      message list from the system prompt and the history; a history entry
      missing a key raises there, and that exception gets the same fixed
      apology as a failing model call.  That list is then discarded, so the
      system prompt plays no part: the model is asked only with the
      analysis prompt and the user's text, and its answer is processed as
      above. */
  function ProcessMessage(user: string, history: seq<HistoryEntry>, analysisPrompt: string,
                          chat: seq<PromptMessage> -> LlmOutcome, loads: string -> ParseOutcome): (r: ProcessReply)
    ensures ProcessMessageRaises(history) ==>
              r == Fixed(FixedReply(UnavailableResponse, UnavailableTranslation, false))
    ensures !ProcessMessageRaises(history) ==>
              r == ProcessAnswer(chat(AnalysisRequest(analysisPrompt, user)), loads)
  {
    if ProcessMessageRaises(history) then Fixed(FixedReply(UnavailableResponse, UnavailableTranslation, false))
    else ProcessAnswer(chat(AnalysisRequest(analysisPrompt, user)), loads)
  }

  /** Beyond raising or not, the history does not reach the answer: any
      two histories that both build give the same reply. */
  lemma ProcessMessageIgnoresHistory(user: string, history1: seq<HistoryEntry>, history2: seq<HistoryEntry>,
                                     analysisPrompt: string,
                                     chat: seq<PromptMessage> -> LlmOutcome, loads: string -> ParseOutcome)
    requires !ProcessMessageRaises(history1) && !ProcessMessageRaises(history2)
    ensures ProcessMessage(user, history1, analysisPrompt, chat, loads)
         == ProcessMessage(user, history2, analysisPrompt, chat, loads)
  {
  }

  /** `_get_translation`: the stripped answer, or a fixed notice. */
  function Translation(llm: LlmOutcome): (r: string)
    ensures llm.Raised? ==> r == TranslationUnavailable
    ensures llm.Completed? ==> r == PyStrip(llm.content)
  {
    match llm
    case Raised => TranslationUnavailable
    case Completed(content) => PyStrip(content)
  }

  // ---------------------------------------------------------------------
  // Corrections

  const InterjectionHelp: string := "interjection_help"
  const GrammarCorrection: string := "grammar_correction"

  /** The object returned when the model's interjection help is not JSON. */
  function InterjectionFallback(words: seq<string>): Json {
    JObject(map[
      "type" := JString(InterjectionHelp),
      "english_words" := JArray(seq(|words|, k requires 0 <= k < |words| => JString(words[k]))),
      "explanation" := JString("I noticed you used English words: " + Join(words, ", ")
                               + ". Let me help you say those in Chinese!")])
  }

  /** Whether the grammar answer counts as "no correction": the first
      disjunct of the source's test, `== 'null'`, is implied by the
      second, so the containment test decides alone.  Only U+0130 and
      U+212A lower into ASCII, and neither lowers to `n`, `u` or `l`, so an
      ASCII lower-casing finds the same occurrences. */
  predicate SaysNull(result: string) {
    Contains(Lower(result), "null")
  }

  lemma NullEqualityImpliesContainment(result: string)
    requires Lower(result) == "null"
    ensures SaysNull(result)
  {
    assert OccursAt(Lower(result), "null", 0);
  }

  /** A decoded grammar answer: a dictionary whose `type` is falsy or
      absent gets `grammar_correction`; anything that is not a dictionary
      makes `.get` raise, which yields `None`. */
  function TypedCorrection(v: Json): (r: Json)
    ensures !v.JObject? ==> r == JNull
    ensures v.JObject? ==> r.JObject? && "type" in r.fields && Truthy(r.fields["type"])
    ensures v.JObject? && "type" in v.fields && Truthy(v.fields["type"]) ==> r == v
    ensures v.JObject? && !("type" in v.fields && Truthy(v.fields["type"])) ==>
              r.fields == v.fields["type" := JString(GrammarCorrection)]
  {
    match v
    case JObject(fields) =>
      if "type" in fields && Truthy(fields["type"]) then v
      else JObject(fields["type" := JString(GrammarCorrection)])
    case _ => JNull
  }

  /** `_analyze_for_corrections`; `JNull` stands for Python's `None`.  The
      interjection path takes precedence whenever English words are found;
      the model is called once either way. */
  function AnalyzeForCorrections(text: string, llm: LlmOutcome, loads: string -> ParseOutcome): (r: Json)
    ensures llm.Raised? ==> r == JNull
    ensures DetectEnglishInterjections(text).Some? && llm.Completed? ==>
              var parsed := loads(PyStrip(llm.content));
              (parsed.Parsed? ==> r == parsed.value)
              && (parsed.ParseFailed? ==> r == InterjectionFallback(DetectEnglishInterjections(text).value.englishWords))
    ensures DetectEnglishInterjections(text).None? && llm.Completed? ==>
              var result := PyStrip(llm.content);
              (SaysNull(result) ==> r == JNull)
              && (!SaysNull(result) && loads(result).ParseFailed? ==> r == JNull)
              && (!SaysNull(result) && loads(result).Parsed? ==> r == TypedCorrection(loads(result).value))
  {
    match llm
    case Raised => JNull
    case Completed(content) =>
      var result := PyStrip(content);
      match DetectEnglishInterjections(text)
      case Some(found) =>
        (match loads(result)
         case Parsed(v) => v
         case ParseFailed => InterjectionFallback(found.englishWords))
      case None =>
        if SaysNull(result) then JNull
        else match loads(result)
          case Parsed(v) => TypedCorrection(v)
          case ParseFailed => JNull
  }

  /** Outside the interjection path a correction is either `None` or a
      dictionary with a truthy `type`. */
  lemma GrammarPathTyped(text: string, llm: LlmOutcome, loads: string -> ParseOutcome)
    requires DetectEnglishInterjections(text).None?
    ensures var r := AnalyzeForCorrections(text, llm, loads);
            r == JNull || (r.JObject? && "type" in r.fields && Truthy(r.fields["type"]))
  {
  }

  /** When the interjection answer is not JSON, the fallback names the
      detected words and is typed `interjection_help`. */
  lemma InterjectionFallbackNamesWords(words: seq<string>)
    ensures var r := InterjectionFallback(words);
            r.JObject? && r.fields["type"] == JString(InterjectionHelp)
            && r.fields["english_words"].JArray? && |r.fields["english_words"].items| == |words|
            && forall k :: 0 <= k < |words| ==> r.fields["english_words"].items[k] == JString(words[k])
  {
  }

  // ---------------------------------------------------------------------
  // Conversation and endpoints

  /** The body `get_conversation_response` returns; `correction` is `None`
      when the key is absent and `Some(JNull)` when it is `null`. */
  datatype ConversationReply = ConversationReply(response: string, translation: string, correction: Option<Json>)

  /** The outcomes of the model calls one chat request makes.  The chat
      call's outcome depends on the prompt it is given. */
  datatype Llms = Llms(
    chat: seq<PromptMessage> -> LlmOutcome,
    analysis: LlmOutcome,
    translation: LlmOutcome,
    loads: string -> ParseOutcome)

  /** `get_conversation_response`: any exception, from the history window
      or the chat call, gives the fixed bilingual reply without a
      correction key; otherwise the stripped answer, its translation and
      the correction analysis of the user's message. */
  function GetConversationResponse(system: string, user: string, history: seq<HistoryEntry>, llms: Llms): (r: ConversationReply)
    ensures ConversationPrompt(system, history, user).None? ==>
              r == ConversationReply(ContinueResponse, ContinueTranslation, None)
    ensures ConversationPrompt(system, history, user).Some? ==>
              var reply := llms.chat(ConversationPrompt(system, history, user).value);
              (reply.Raised? ==> r == ConversationReply(ContinueResponse, ContinueTranslation, None))
              && (reply.Completed? ==>
                    r.response == PyStrip(reply.content)
                    && r.translation == Translation(llms.translation)
                    && r.correction == Some(AnalyzeForCorrections(user, llms.analysis, llms.loads)))
  {
    match ConversationPrompt(system, history, user)
    case None => ConversationReply(ContinueResponse, ContinueTranslation, None)
    case Some(prompt) =>
      match llms.chat(prompt)
      case Raised => ConversationReply(ContinueResponse, ContinueTranslation, None)
      case Completed(content) =>
        var aiResponse := PyStrip(content);
        ConversationReply(aiResponse, Translation(llms.translation), Some(AnalyzeForCorrections(user, llms.analysis, llms.loads)))
  }

  /** The `message` member of the request body. */
  datatype MessageField = Missing | Text(value: string) | NotText

  /** The decoded request body; an absent history is the empty list. */
  datatype RequestBody = NotAnObject | Fields(message: MessageField, history: seq<HistoryEntry>)

  const MessageRequired: string := "Message is required"
  const ChatFailed: string := "An error occurred processing your message"
  const ChatFailedResponse: string := "抱歉，出现了错误。"
  const ChatFailedTranslation: string := "Sorry, an error occurred."

  datatype ChatBody =
    | ErrorBody(error: string)
    | ErrorWithReply(error: string, response: string, translation: string)
    | Conversation(reply: ConversationReply)

  datatype HttpResponse = HttpResponse(status: nat, body: ChatBody)

  /** `/api/chat`: the message is stripped and must not be empty (400);
      a body that is not an object, or a message that is not a string,
      raises inside the handler (500); otherwise the conversation reply
      with status 200. */
  function Chat(body: RequestBody, system: string, llms: Llms): (r: HttpResponse)
    ensures r.status == 400 <==> body.Fields? && (body.message.Missing? || (body.message.Text? && PyStrip(body.message.value) == []))
    ensures r.status == 400 ==> r.body == ErrorBody(MessageRequired)
    ensures r.status == 500 <==> body.NotAnObject? || body.message.NotText?
    ensures r.status == 500 ==> r.body == ErrorWithReply(ChatFailed, ChatFailedResponse, ChatFailedTranslation)
    ensures r.status == 200 ==> body.Fields? && body.message.Text? && PyStrip(body.message.value) != []
                                && r.body == Conversation(GetConversationResponse(system, PyStrip(body.message.value), body.history, llms))
    ensures r.status in {200, 400, 500}
  {
    match body
    case NotAnObject => HttpResponse(500, ErrorWithReply(ChatFailed, ChatFailedResponse, ChatFailedTranslation))
    case Fields(message, history) =>
      match message
      case NotText => HttpResponse(500, ErrorWithReply(ChatFailed, ChatFailedResponse, ChatFailedTranslation))
      case Missing => HttpResponse(400, ErrorBody(MessageRequired))
      case Text(value) =>
        var userMessage := PyStrip(value);
        if userMessage == [] then HttpResponse(400, ErrorBody(MessageRequired))
        else HttpResponse(200, Conversation(GetConversationResponse(system, userMessage, history, llms)))
  }

  /** A message of only spaces is rejected like a missing one. */
  lemma BlankMessageRejected(system: string, llms: Llms)
    ensures Chat(Fields(Text("   "), []), system, llms) == HttpResponse(400, ErrorBody(MessageRequired))
    ensures Chat(Fields(Missing, []), system, llms) == HttpResponse(400, ErrorBody(MessageRequired))
  {
    assert forall k :: 0 <= k < |"   "| ==> IsPySpace("   "[k]);
  }

  datatype Topic = Topic(topic: string, translation: string)

  /** The five fixed topics of `get_random_conversation_topic`'s fallback. */
  const FallbackTopics: seq<Topic> := [
    Topic("你今天做了什么有趣的事情？", "What interesting things did you do today?"),
    Topic("你最喜欢吃什么菜？", "What's your favorite dish?"),
    Topic("周末你通常做什么？", "What do you usually do on weekends?"),
    Topic("你觉得今天的天气怎么样？", "How do you think today's weather is?"),
    Topic("你有什么爱好吗？", "Do you have any hobbies?")]

  /** `get_random_conversation_topic`; `choice` stands for
      `random.choice`'s pick.  A failing topic call gives one of the fixed
      pairs; a failing translation only replaces the translation. */
  function RandomTopic(topicCall: LlmOutcome, translationCall: LlmOutcome, choice: nat): (r: Topic)
    requires choice < |FallbackTopics|
    ensures topicCall.Raised? ==> r in FallbackTopics
    ensures topicCall.Completed? ==> r.topic == PyStrip(topicCall.content) && r.translation == Translation(translationCall)
  {
    match topicCall
    case Raised => FallbackTopics[choice]
    case Completed(content) =>
      var chineseTopic := PyStrip(content);
      Topic(chineseTopic, Translation(translationCall))
  }
}

=== FILE: chinese_detector.dfy ===
/** The Chinese-text filter of the React Native client (`containsChinese`,
    `extractChinese`).  The same deletion class is repeated verbatim by the
    text-to-speech service and by the web client's `speakText`. */
module ChineseDetector {
  import opened Strings

  /** CJK Unified Ideographs (U+4E00..U+9FFF) or CJK Unified Ideographs
      Extension A (U+3400..U+4DBF). */
  predicate IsChinese(c: char) {
    ('\U{4E00}' <= c <= '\U{9FFF}') || ('\U{3400}' <= c <= '\U{4DBF}')
  }

  /** `containsChinese`: the regular-expression test scans for one
      ideograph. */
  function ContainsChinese(s: string): (r: bool)
    ensures r <==> exists i :: 0 <= i < |s| && IsChinese(s[i])
  {
    if s == [] then false
    else if IsChinese(s[0]) then true
    else
      var r := ContainsChinese(s[1..]);
      assert forall i :: 1 <= i < |s| ==> s[i] == s[1..][i - 1];
      r
  }

  /** The punctuation listed in the deletion class, including the en dash
      U+2013 and the em dash U+2014. */
  const DeletedPunctuation: string := ".,!?;:'\"()-\U{2013}\U{2014}[]{}/\\@#$%^&*+=_`~<>|"

  /** The character class that `extractChinese` deletes: ASCII letters,
      digits, `\s` and the listed punctuation. */
  predicate IsDeleted(c: char) {
    IsAsciiLetter(c) || IsAsciiDigit(c) || IsJsSpace(c) || c in DeletedPunctuation
  }

  /** Reference definition: `s` with every character of the class removed,
      order preserved. */
  function Kept(s: string): (r: string)
    ensures |r| <= |s|
  {
    if s == [] then []
    else if IsDeleted(s[0]) then Kept(s[1..])
    else [s[0]] + Kept(s[1..])
  }

  /** The filter leaves no character of the class. */
  lemma {:induction false} KeptHasNoDeleted(s: string)
    ensures forall i :: 0 <= i < |Kept(s)| ==> !IsDeleted(Kept(s)[i])
  {
    if s != [] {
      KeptHasNoDeleted(s[1..]);
    }
  }

  /** A character is in the filtered text iff it is in the input and
      outside the class. */
  lemma {:induction false} KeptMembers(s: string, c: char)
    ensures c in Kept(s) <==> c in s && !IsDeleted(c)
  {
    if s != [] {
      KeptMembers(s[1..], c);
      assert c in s <==> c == s[0] || c in s[1..];
    }
  }

  /** `text.replace(/[class]+/g, '')`: each maximal run of class characters
      is matched greedily and replaced by nothing. */
  function ReplaceRuns(s: string): string
    decreases |s|
  {
    if s == [] then []
    else if IsDeleted(s[0]) then ReplaceRuns(s[LeadLen(s, IsDeleted)..])
    else [s[0]] + ReplaceRuns(s[1..])
  }

  /** A prefix made only of class characters contributes nothing. */
  lemma {:induction false} KeptSkipsRun(s: string, n: nat)
    requires n <= |s|
    requires forall k :: 0 <= k < n ==> IsDeleted(s[k])
    ensures Kept(s) == Kept(s[n..])
  {
    if n > 0 {
      assert s[1..][n - 1..] == s[n..];
      KeptSkipsRun(s[1..], n - 1);
    }
  }

  /** Deleting maximal runs is deleting every class character. */
  lemma {:induction false} ReplaceRunsIsKept(s: string)
    ensures ReplaceRuns(s) == Kept(s)
    decreases |s|
  {
    if s != [] {
      if IsDeleted(s[0]) {
        var n := LeadLen(s, IsDeleted);
        KeptSkipsRun(s, n);
        ReplaceRunsIsKept(s[n..]);
      } else {
        ReplaceRunsIsKept(s[1..]);
      }
    }
  }

  /** `extractChinese`: delete the class, then `trim`.  The result is the
      reference filter: the trim has nothing left to remove, since every
      `\s` character is in the class. */
  function ExtractChinese(s: string): (r: string)
    ensures r == Kept(s)
    ensures forall i :: 0 <= i < |r| ==> !IsDeleted(r[i])
    ensures |r| <= |s|
  {
    ReplaceRunsIsKept(s);
    KeptHasNoDeleted(s);
    TrimNoop(ReplaceRuns(s), IsJsSpace);
    JsTrim(ReplaceRuns(s))
  }

  /** Filtering twice is filtering once. */
  lemma {:induction false} KeptIdempotent(s: string)
    ensures Kept(Kept(s)) == Kept(s)
  {
    if s != [] {
      KeptIdempotent(s[1..]);
    }
  }

  lemma ExtractChineseIdempotent(s: string)
    ensures ExtractChinese(ExtractChinese(s)) == ExtractChinese(s)
  {
    KeptIdempotent(s);
  }

  /** Every character outside the class survives the filter, ideographs and
      full-width punctuation included. */
  lemma ExtractChineseKeepsOutsiders(s: string, c: char)
    requires !IsDeleted(c)
    ensures c in ExtractChinese(s) <==> c in s
  {
    KeptMembers(s, c);
  }

  /** Above the ideographic space the class holds only U+FEFF. */
  lemma HighNotDeleted(c: char)
    requires '\U{3001}' <= c && c != '\U{FEFF}'
    ensures !IsDeleted(c)
  {
    assert forall k :: 0 <= k < |DeletedPunctuation| ==> DeletedPunctuation[k] <= '\U{2014}';
  }

  /** A text with Chinese still has Chinese after filtering. */
  lemma ExtractChineseKeepsChinese(s: string)
    ensures ContainsChinese(s) ==> ContainsChinese(ExtractChinese(s))
  {
    if ContainsChinese(s) {
      var i :| 0 <= i < |s| && IsChinese(s[i]);
      var c := s[i];
      HighNotDeleted(c);
      ExtractChineseKeepsOutsiders(s, c);
      var r := ExtractChinese(s);
      var j :| 0 <= j < |r| && r[j] == c;
    }
  }

  /** Text with nothing from the class passes through unchanged. */
  lemma {:induction false} KeptNoop(s: string)
    requires forall i :: 0 <= i < |s| ==> !IsDeleted(s[i])
    ensures Kept(s) == s
  {
    if s != [] {
      KeptNoop(s[1..]);
    }
  }

  /** Ideographs and full-width punctuation pass through unchanged. */
  lemma ExtractChineseExample()
    ensures ExtractChinese("你好，世界！") == "你好，世界！"
  {
    var s := "你好，世界！";
    forall k | 0 <= k < |s| ensures !IsDeleted(s[k]) {
      HighNotDeleted(s[k]);
    }
    KeptNoop(s);
  }
}

=== FILE: history_contract.dfy ===
/** The history contract between the clients and the backend.  The
    backend builds its prompt from all history entries except the last,
    because it expects the client to have appended the current message
    already.  The web client does append first; the React Native client
    sends the history as it was before the append, so the backend drops
    that client's most recent prior turn instead. */
module HistoryContract {
  import opened Wrappers
  import opened MessageTypes
  import B = Backend
  import W = WebClient
  import U = UseConversation
  import AppContext

  /** A client message as the backend reads it from the JSON body. */
  function ToEntry(m: Message): (e: B.HistoryEntry)
    ensures B.EntryToPrompt(e).Include?
    ensures B.EntryToPrompt(e).m.content == m.message
    ensures B.EntryToPrompt(e).m.role == (if m.sender == User then B.UserRole else B.Assistant)
  {
    B.HistoryEntry(Some(if m.sender == User then "user" else "ai"), Some(m.message))
  }

  function ToEntries(h: seq<Message>): (r: seq<B.HistoryEntry>)
    ensures |r| == |h| && forall k :: 0 <= k < |h| ==> r[k] == ToEntry(h[k])
  {
    seq(|h|, k requires 0 <= k < |h| => ToEntry(h[k]))
  }

  /** The prompt messages of client messages, one each, in order. */
  function Turns(h: seq<Message>): (r: seq<B.PromptMessage>)
    ensures |r| == |h| && forall k :: 0 <= k < |h| ==> r[k] == B.EntryToPrompt(ToEntry(h[k])).m
  {
    seq(|h|, k requires 0 <= k < |h| => B.EntryToPrompt(ToEntry(h[k])).m)
  }

  /** The prompt the backend builds from a history a client sent. */
  lemma PromptOfClientHistory(system: string, sent: seq<Message>, user: string)
    ensures B.ConversationPrompt(system, ToEntries(sent), user)
            == Some([B.PromptMessage(B.System, system)] + Turns(B.LastN(B.DropLast(sent), 8)) + [B.PromptMessage(B.UserRole, user)])
  {
    var window := B.LastN(B.DropLast(sent), 8);
    assert B.LastN(B.DropLast(ToEntries(sent)), 8) == ToEntries(window);
    B.MapHistoryWellFormed(ToEntries(window));
    assert B.MapHistory(ToEntries(window)).value == Turns(window);
  }

  /** Web client: the history sent already ends with the current message,
      so the model sees up to eight of the turns before it, the latest
      one included. */
  lemma WebClientKeepsPriorTurns(w: W.Web, message: string, userTime: Timestamp, system: string, user: string)
    requires !w.isProcessing
    ensures var o := W.BeginUserMessage(w, message, userTime);
            && o.effects[0].PostChat?
            && B.ConversationPrompt(system, ToEntries(o.effects[0].history), user)
               == Some([B.PromptMessage(B.System, system)] + Turns(B.LastN(w.history, 8)) + [B.PromptMessage(B.UserRole, user)])
  {
    var sent := w.history + [Message(User, message, None, userTime)];
    assert W.BeginUserMessage(w, message, userTime).effects[0].history == sent;
    assert B.DropLast(sent) == w.history;
    PromptOfClientHistory(system, sent, user);
  }

  /** React Native client: the history sent is the one before the
      append, so the backend still drops its last entry, which is the
      latest prior turn. */
  lemma NativeClientDropsLatestTurn(s: AppContext.AppState, message: string, userTime: Timestamp, replyTime: Timestamp,
                                    outcome: U.ChatOutcome, system: string, user: string)
    requires U.SendAccepted(s, message)
    ensures var t := U.SendMessage(s, message, userTime, replyTime, outcome);
            && t[3].Perform? && t[3].effect.ChatRequest?
            && B.ConversationPrompt(system, ToEntries(t[3].effect.history), user)
               == Some([B.PromptMessage(B.System, system)] + Turns(B.LastN(B.DropLast(s.history), 8)) + [B.PromptMessage(B.UserRole, user)])
  {
    PromptOfClientHistory(system, s.history, user);
  }

  /** Concretely: after a topic opened the conversation, the native
      client's first message reaches the model without that topic ... */
  lemma NativeFirstMessageLosesTopic(system: string, user: string, topic: Message)
    requires topic.sender == Ai
    ensures B.ConversationPrompt(system, ToEntries([topic]), user)
            == Some([B.PromptMessage(B.System, system), B.PromptMessage(B.UserRole, user)])
  {
    var sys, u := B.PromptMessage(B.System, system), B.PromptMessage(B.UserRole, user);
    PromptOfClientHistory(system, [topic], user);
    assert B.DropLast([topic]) == [];
    assert Turns([]) == [];
    assert [sys] + Turns(B.LastN(B.DropLast([topic]), 8)) + [u] == [sys, u];
  }

  /** ... while the web client's carries it. */
  lemma WebFirstMessageKeepsTopic(system: string, user: string, topic: Message, first: Message)
    requires topic.sender == Ai && first.sender == User
    ensures B.ConversationPrompt(system, ToEntries([topic, first]), user)
            == Some([B.PromptMessage(B.System, system), B.PromptMessage(B.Assistant, topic.message), B.PromptMessage(B.UserRole, user)])
  {
    var sys, u := B.PromptMessage(B.System, system), B.PromptMessage(B.UserRole, user);
    var a := B.PromptMessage(B.Assistant, topic.message);
    var sent := [topic, first];
    assert Turns(B.LastN(B.DropLast(sent), 8)) == [a] by {
      assert B.DropLast(sent) == [topic];
      assert B.LastN([topic], 8) == [topic];
    }
    PromptOfClientHistory(system, sent, user);
    assert [sys] + [a] + [u] == [sys, a, u];
  }
}

=== FILE: interjections.dfy ===
/** English-word detection in the backend (`_detect_english_interjections`
    in `app.py`): `re.findall` with the pattern `\b[a-zA-Z]+\b` on a Python
    3 `str`, where `\w` (and hence `\b`) is Unicode-aware.  The search is
    simulated the way the regular-expression engine runs it, then proved
    equal to a declarative reference: the maximal runs of ASCII letters
    that touch no other word character. */
module Interjections {
  import opened Wrappers
  import opened Strings

  /** Python's `\w` on `str`: alphanumeric characters and `_`.  Python
      decides this from the full Unicode database; this table covers ASCII,
      the Latin-1 and Latin Extended letters and numerals, U+3007, the
      ideographs U+3400..U+4DBF and U+4E00..U+9FFF, kana, Hangul syllables
      and the full-width Latin letters and digits, and treats every other
      character (later CJK extensions and compatibility ideographs
      included) as a non-word character. */
  predicate IsWordChar(c: char) {
    || IsAsciiLetter(c) || IsAsciiDigit(c) || c == '_'
    || c == 'ª' || c == '²' || c == '³' || c == 'µ' || c == '¹' || c == 'º'
    || ('¼' <= c <= '¾')
    || ('À' <= c <= 'ʯ' && c != '×' && c != '÷')
    || c == '〇'
    || ('ぁ' <= c <= 'ゖ') || ('ァ' <= c <= 'ヺ')
    || ('㐀' <= c <= '䶿') || ('一' <= c <= '鿿')
    || ('가' <= c <= '힣')
    || ('０' <= c <= '９') || ('Ａ' <= c <= 'Ｚ') || ('ａ' <= c <= 'ｚ')
  }

  /** `\b` at position `p`: a word character on exactly one side. */
  predicate AtBoundary(s: string, p: nat)
    requires p <= |s|
  {
    (p > 0 && IsWordChar(s[p - 1])) != (p < |s| && IsWordChar(s[p]))
  }

  /** Reference: `s[i..j]` is a non-empty run of ASCII letters with no word
      character immediately before or after it. */
  predicate BoundedRun(s: string, i: nat, j: nat) {
    && i < j <= |s|
    && (forall k :: i <= k < j ==> IsAsciiLetter(s[k]))
    && (i == 0 || !IsWordChar(s[i - 1]))
    && (j == |s| || !IsWordChar(s[j]))
  }

  /** A run starting at `i` can end in one place only. */
  lemma BoundedRunUnique(s: string, i: nat, j: nat, j': nat)
    requires BoundedRun(s, i, j) && BoundedRun(s, i, j')
    ensures j == j'
  {
    assert j == |s| || !IsAsciiLetter(s[j]);
    assert j' == |s| || !IsAsciiLetter(s[j']);
  }

  /** The engine's backtracking after `[a-zA-Z]+` has consumed `n` letters:
      try the end `p + n`, then give letters back one at a time. */
  function Backtrack(s: string, p: nat, n: nat): (r: Option<nat>)
    requires p + n <= |s|
    ensures r.Some? ==> p < r.value <= p + n && AtBoundary(s, r.value)
    decreases n
  {
    if n == 0 then None
    else if AtBoundary(s, p + n) then Some(p + n)
    else Backtrack(s, p, n - 1)
  }

  /** Giving letters back never helps: between two letters there is no
      `\b`. */
  lemma {:induction false} BacktrackInsideRun(s: string, p: nat, n: nat, run: nat)
    requires p + run <= |s| && n < run
    requires forall k :: p <= k < p + run ==> IsAsciiLetter(s[k])
    ensures Backtrack(s, p, n) == None
    decreases n
  {
    if n > 0 {
      assert IsAsciiLetter(s[p + n - 1]) && IsAsciiLetter(s[p + n]);
      BacktrackInsideRun(s, p, n - 1, run);
    }
  }

  /** One match attempt at `p`: `\b`, a greedy `[a-zA-Z]+`, then `\b` with
      backtracking.  It succeeds exactly at the start of a bounded run and
      then ends where that run ends. */
  function MatchAt(s: string, p: nat): (r: Option<nat>)
    requires p <= |s|
    ensures r.Some? ==> p < r.value <= |s| && BoundedRun(s, p, r.value)
    ensures forall j: nat :: BoundedRun(s, p, j) ==> r == Some(j)
  {
    var run := LeadLen(s[p..], IsAsciiLetter);
    MatchAtIsRun(s, p, run);
    if !AtBoundary(s, p) then None else Backtrack(s, p, run)
  }

  lemma MatchAtIsRun(s: string, p: nat, run: nat)
    requires p <= |s| && run == LeadLen(s[p..], IsAsciiLetter)
    ensures var r := if !AtBoundary(s, p) then None else Backtrack(s, p, run);
            (r.Some? ==> p < r.value <= |s| && BoundedRun(s, p, r.value))
            && (forall j: nat :: BoundedRun(s, p, j) ==> r == Some(j))
  {
    assert forall k :: p <= k < p + run ==> IsAsciiLetter(s[k]) by {
      forall k | p <= k < p + run ensures IsAsciiLetter(s[k]) {
        assert s[p..][k - p] == s[k];
      }
    }
    assert p + run < |s| ==> !IsAsciiLetter(s[p + run]) by {
      if p + run < |s| {
        assert s[p..][run] == s[p + run];
      }
    }
    if run > 0 {
      BacktrackInsideRun(s, p, run - 1, run);
    }
    forall j: nat | BoundedRun(s, p, j)
      ensures AtBoundary(s, p) && j == p + run && AtBoundary(s, p + run)
    {
      assert j == |s| || !IsAsciiLetter(s[j]);
    }
  }

  /** `re.findall`: try every position from `p`; after a match, resume at
      its end. */
  function FindAllFrom(s: string, p: nat): (r: seq<(nat, nat)>)
    requires p <= |s|
    decreases |s| - p
  {
    if p == |s| then []
    else match MatchAt(s, p)
      case Some(e) => [(p, e)] + FindAllFrom(s, e)
      case None => FindAllFrom(s, p + 1)
  }

  /** Every reported span is a bounded run at or after the start. */
  lemma {:induction false} FindAllSound(s: string, p: nat)
    requires p <= |s|
    ensures forall k :: 0 <= k < |FindAllFrom(s, p)| ==>
              p <= FindAllFrom(s, p)[k].0 && BoundedRun(s, FindAllFrom(s, p)[k].0, FindAllFrom(s, p)[k].1)
    decreases |s| - p
  {
    if p < |s| {
      match MatchAt(s, p)
      case Some(e) =>
        FindAllSound(s, e);
        var rest := FindAllFrom(s, e);
        assert FindAllFrom(s, p) == [(p, e)] + rest;
        forall k | 1 <= k < |FindAllFrom(s, p)|
          ensures FindAllFrom(s, p)[k] == rest[k - 1]
        {
        }
      case None =>
        FindAllSound(s, p + 1);
    }
  }

  /** Reported spans are in increasing order and do not overlap. */
  lemma {:induction false} FindAllOrdered(s: string, p: nat)
    requires p <= |s|
    ensures forall k :: 0 <= k < |FindAllFrom(s, p)| - 1 ==> FindAllFrom(s, p)[k].1 <= FindAllFrom(s, p)[k + 1].0
    decreases |s| - p
  {
    if p < |s| {
      match MatchAt(s, p)
      case Some(e) =>
        FindAllOrdered(s, e);
        FindAllSound(s, e);
        var rest := FindAllFrom(s, e);
        assert FindAllFrom(s, p) == [(p, e)] + rest;
        forall k | 1 <= k < |FindAllFrom(s, p)|
          ensures FindAllFrom(s, p)[k] == rest[k - 1]
        {
        }
      case None =>
        FindAllOrdered(s, p + 1);
    }
  }

  /** Every bounded run at or after the start is reported. */
  lemma {:induction false} FindAllComplete(s: string, p: nat, i: nat, j: nat)
    requires p <= i && BoundedRun(s, i, j)
    ensures (i, j) in FindAllFrom(s, p)
    decreases |s| - p
  {
    if p == i {
      assert MatchAt(s, p) == Some(j);
    } else {
      match MatchAt(s, p)
      case Some(e) =>
        assert !IsAsciiLetter(s[i - 1]);
        FindAllComplete(s, e, i, j);
      case None =>
        FindAllComplete(s, p + 1, i, j);
    }
  }

  /** The spans `re.findall` reports on the whole text. */
  function Spans(s: string): seq<(nat, nat)> {
    FindAllFrom(s, 0)
  }

  /** The reported spans are exactly the bounded runs, in order. */
  lemma SpansCharacterised(s: string)
    ensures forall k :: 0 <= k < |Spans(s)| ==> BoundedRun(s, Spans(s)[k].0, Spans(s)[k].1)
    ensures forall k :: 0 <= k < |Spans(s)| - 1 ==> Spans(s)[k].1 <= Spans(s)[k + 1].0
    ensures forall i: nat, j: nat :: BoundedRun(s, i, j) ==> (i, j) in Spans(s)
  {
    FindAllSound(s, 0);
    FindAllOrdered(s, 0);
    forall i: nat, j: nat | BoundedRun(s, i, j) ensures (i, j) in Spans(s) {
      FindAllComplete(s, 0, i, j);
    }
  }

  datatype Detection = Detection(englishWords: seq<string>, originalText: string)

  /** The words of the reported spans. */
  function SpanWords(s: string, spans: seq<(nat, nat)>): (r: seq<string>)
    requires forall k :: 0 <= k < |spans| ==> spans[k].0 <= spans[k].1 <= |s|
    ensures |r| == |spans|
    ensures forall k :: 0 <= k < |spans| ==> r[k] == s[spans[k].0..spans[k].1]
  {
    if spans == [] then []
    else SpanWords(s, spans[..|spans| - 1]) + [s[spans[|spans| - 1].0..spans[|spans| - 1].1]]
  }

  /** `_detect_english_interjections`: `None` exactly when the text has no
      bounded run of ASCII letters; otherwise the runs' words, in order,
      with the original text. */
  function DetectEnglishInterjections(text: string): (r: Option<Detection>)
    ensures r.None? <==> forall i: nat, j: nat :: !BoundedRun(text, i, j)
    ensures r.Some? ==> r.value.originalText == text && r.value.englishWords != []
    ensures r.Some? ==> |r.value.englishWords| == |Spans(text)|
                        && forall k :: 0 <= k < |Spans(text)| ==>
                             BoundedRun(text, Spans(text)[k].0, Spans(text)[k].1)
                             && r.value.englishWords[k] == text[Spans(text)[k].0..Spans(text)[k].1]
  {
    SpansCharacterised(text);
    var spans := Spans(text);
    if spans == [] then None
    else
      assert BoundedRun(text, spans[0].0, spans[0].1);
      Some(Detection(SpanWords(text, spans), text))
  }

  /** Ideographs are word characters, so an English word glued to Chinese
      text is not detected. */
  lemma GluedWordNotDetected()
    ensures DetectEnglishInterjections("我喜欢apple").None?
  {
    var s := "我喜欢apple";
    assert !IsAsciiLetter(s[0]);
    assert forall k :: 0 <= k < |s| ==> IsWordChar(s[k]);
  }

  /** A space before the word is enough. */
  lemma SpacedWordDetected()
    ensures DetectEnglishInterjections("我喜欢 apple").Some?
  {
    var s := "我喜欢 apple";
    assert BoundedRun(s, 4, 9);
  }
}

=== FILE: message_types.dfy ===
/** The records the React Native client and the web client exchange with the
    chat backend: messages, corrections and chat replies. */
module MessageTypes {
  import opened Wrappers

  /** Timestamps come from the platform clock and are opaque here. */
  type Timestamp = string

  datatype Sender = User | Ai

  /** One conversational turn, in the shape both clients send. */
  datatype Message = Message(sender: Sender, message: string, translation: Option<string>, timestamp: Timestamp)

  datatype CorrectionKind = GrammarCorrection | InterjectionHelp

  datatype Correction = Correction(
    kind: CorrectionKind,
    original: Option<string>,
    corrected: Option<string>,
    explanation: string)

  /** A successful reply of the chat endpoint.  A JSON `null` correction is
      falsy in the client, so it is `None` here like an absent one. */
  datatype ChatReply = ChatReply(response: string, translation: Option<string>, correction: Option<Correction>)

  /** Index of the most recent AI message, as found by reversing the history
      and taking the first AI entry. */
  function LastAiIndex(h: seq<Message>): (r: Option<nat>)
    ensures r.None? <==> forall i :: 0 <= i < |h| ==> h[i].sender != Ai
    ensures r.Some? ==> (r.value < |h| && h[r.value].sender == Ai
                         && forall j :: r.value < j < |h| ==> h[j].sender != Ai)
  {
    if h == [] then None
    else if h[|h| - 1].sender == Ai then Some(|h| - 1)
    else LastAiIndex(h[..|h| - 1])
  }

  /** Text of the most recent AI message, if any. */
  function LastAiText(h: seq<Message>): Option<string> {
    match LastAiIndex(h)
    case Some(i) => Some(h[i].message)
    case None => None
  }
}

=== FILE: speech_recognition.dfy ===
/** The React Native speech-capture service `SpeechRecognitionService`: its
    `isListening` flag, whether the hook's callbacks are registered, and the
    mapping from recogniser errors to user-visible messages.  Calls into the
    native recogniser and invocations of the registered callbacks form the
    output trace; whether each native call resolves is an input. */
module SpeechRecognition {
  import opened Wrappers
  import opened Strings

  const RecognitionLocale: string := "zh-CN"
  const UnavailableMessage: string := "Voice recording not available. Please use the built app instead of Expo Go."
  const StartFailedPrefix: string := "Failed to start recording: "
  const UnknownErrorText: string := "Unknown error occurred"
  const NoMatchMessage: string := "No speech was recognized. Please try again."
  const TimeoutMessage: string := "Speech timeout. Please speak louder or try again."
  const ClientErrorMessage: string := "Please check your microphone permissions."
  const GenericErrorPrefix: string := "Speech recognition error: "
  const MissingErrorMessage: string := "Speech recognition failed"

  datatype Recognizer = Recognizer(isListening: bool, callbacksSet: bool)

  function InitialRecognizer(): Recognizer {
    Recognizer(false, false)
  }

  datatype VoiceCall = VoiceStop | VoiceCancel | VoiceStart(locale: string) | VoiceDestroy

  /** What a rejected native call threw: an `Error` carries a message,
      anything else does not. */
  datatype Thrown = ErrorObject(message: string) | OtherValue

  /** The callbacks the hook registers. */
  datatype Notification = TranscriptReady(transcript: string) | ErrorReported(message: string)

  datatype Event = Native(call: VoiceCall) | Notify(notification: Notification)

  datatype Out = Out(state: Recognizer, events: seq<Event>)

  /** Which awaited native call of `startRecording` rejects, if any. */
  datatype StartFault = StartOk | StopRejected(e: Thrown) | CancelRejected(e: Thrown) | StartRejected(e: Thrown)

  /** Which awaited native call of `destroy` rejects, if any. */
  datatype DestroyFault = DestroyOk | DestroyStopRejected | DestroyCancelRejected

  /** The text after "Failed to start recording: ". */
  function ThrownText(e: Thrown): string {
    match e
    case ErrorObject(m) => m
    case OtherValue => UnknownErrorText
  }

  predicate Notified(o: Out, n: Notification) {
    Notify(n) in o.events
  }

  /** How many of the three awaited native calls of `startRecording`
      (stop, cancel, start) are made before the first rejection. */
  function NativeCallsReached(fault: StartFault): (n: nat)
    ensures 1 <= n <= 3
    ensures n == 3 <==> fault.StartOk? || fault.StartRejected?
    ensures n == 1 <==> fault.StopRejected?
  {
    match fault
    case StopRejected(_) => 1
    case CancelRejected(_) => 2
    case _ => 3
  }

  /** `startRecording`.  When the native module is missing, the error
      callback gets the fixed "not available" message and nothing else
      changes.  Otherwise the callbacks are registered first; the service
      stops and cancels any old session, then starts one in Chinese.  Success
      leaves it listening; a rejection at any of the three calls reports
      "Failed to start recording: " and the cause, and leaves it not
      listening. */
  function StartRecording(s: Recognizer, available: bool, fault: StartFault): (o: Out)
    ensures !available ==> o.state == s && o.events == [Notify(ErrorReported(UnavailableMessage))]
    ensures available ==> o.state.callbacksSet
    ensures available && fault.StartOk? ==> o.state.isListening && (forall n :: !Notified(o, n))
    ensures available && !fault.StartOk? ==>
              !o.state.isListening && |o.events| > 0
              && o.events[|o.events| - 1] == Notify(ErrorReported(StartFailedPrefix + ThrownText(fault.e)))
    ensures available ==> Native(VoiceStop) in o.events
    ensures Native(VoiceStart(RecognitionLocale)) in o.events <==> available && (fault.StartOk? || fault.StartRejected?)
    ensures available ==> |o.events| == NativeCallsReached(fault) + (if fault.StartOk? then 0 else 1)
    ensures available ==> o.events[0] == Native(VoiceStop)
    ensures available && !fault.StopRejected? ==> o.events[1] == Native(VoiceCancel)
    ensures forall i :: 0 <= i < |o.events| && o.events[i] == Native(VoiceStart(RecognitionLocale)) ==> i == 2
    ensures forall i :: 0 <= i < |o.events| && o.events[i].Notify? ==> i == |o.events| - 1
  {
    if !available then
      Out(s, [Notify(ErrorReported(UnavailableMessage))])
    else
      var registered := s.(callbacksSet := true);
      match fault
      case StartOk =>
        Out(registered.(isListening := true),
            [Native(VoiceStop), Native(VoiceCancel), Native(VoiceStart(RecognitionLocale))])
      case StopRejected(e) =>
        Out(registered.(isListening := false),
            [Native(VoiceStop), Notify(ErrorReported(StartFailedPrefix + ThrownText(e)))])
      case CancelRejected(e) =>
        Out(registered.(isListening := false),
            [Native(VoiceStop), Native(VoiceCancel), Notify(ErrorReported(StartFailedPrefix + ThrownText(e)))])
      case StartRejected(e) =>
        Out(registered.(isListening := false),
            [Native(VoiceStop), Native(VoiceCancel), Native(VoiceStart(RecognitionLocale)),
             Notify(ErrorReported(StartFailedPrefix + ThrownText(e)))])
  }

  /** `stopRecording`: nothing happens when not listening; otherwise the
      native stop is called and the service ends not listening whether or
      not the stop rejects. */
  function StopRecording(s: Recognizer, stopRejects: bool): (o: Out)
    ensures !s.isListening ==> o == Out(s, [])
    ensures s.isListening ==> !o.state.isListening && o.events == [Native(VoiceStop)]
    ensures o.state.callbacksSet == s.callbacksSet
  {
    if !s.isListening then Out(s, [])
    else Out(s.(isListening := false), [Native(VoiceStop)])
  }

  /** `cancelRecording`: always calls the native cancel and always ends not
      listening. */
  function CancelRecording(s: Recognizer, cancelRejects: bool): (o: Out)
    ensures !o.state.isListening && o.state.callbacksSet == s.callbacksSet
    ensures o.events == [Native(VoiceCancel)]
  {
    Out(s.(isListening := false), [Native(VoiceCancel)])
  }

  /** `destroy`: a rejection of the awaited stop or cancel is caught before
      the flags are reset, leaving the service as it was; otherwise the
      native module is released and the service is back to its initial
      state. */
  function Destroy(s: Recognizer, fault: DestroyFault): (o: Out)
    ensures fault.DestroyOk? ==> o.state == InitialRecognizer() && Native(VoiceDestroy) in o.events
    ensures !fault.DestroyOk? ==> o.state == s && Native(VoiceDestroy) !in o.events
    ensures forall n :: !Notified(o, n)
  {
    match fault
    case DestroyOk => Out(InitialRecognizer(), [Native(VoiceStop), Native(VoiceCancel), Native(VoiceDestroy)])
    case DestroyStopRejected => Out(s, [Native(VoiceStop)])
    case DestroyCancelRejected => Out(s, [Native(VoiceStop), Native(VoiceCancel)])
  }

  /** The recogniser's own start event sets the flag; nothing is forwarded
      to the hook. */
  function OnSpeechStart(s: Recognizer): (r: Recognizer)
    ensures r.isListening && r.callbacksSet == s.callbacksSet
  {
    s.(isListening := true)
  }

  /** The recogniser's own end event clears the flag. */
  function OnSpeechEnd(s: Recognizer): (r: Recognizer)
    ensures !r.isListening && r.callbacksSet == s.callbacksSet
  {
    s.(isListening := false)
  }

  /** The native events confirm what the service already recorded: the
      start event after a successful start, and the end event after a stop
      or a cancel, leave the state as the service's own call left it. */
  lemma SpeechEventsAgreeWithService(s: Recognizer, stopRejects: bool, cancelRejects: bool)
    ensures var started := StartRecording(s, true, StartOk).state;
            OnSpeechStart(started) == started
    ensures var stopped := StopRecording(s, stopRejects).state;
            OnSpeechEnd(stopped) == stopped
    ensures var cancelled := CancelRecording(s, cancelRejects).state;
            OnSpeechEnd(cancelled) == cancelled
  {
  }

  /** `onSpeechResults`: the first hypothesis is forwarded, and only when the
      event has at least one and the callbacks are registered. */
  function OnSpeechResults(s: Recognizer, value: Option<seq<string>>): (o: Out)
    ensures o.state == s
    ensures forall t :: Notified(o, TranscriptReady(t)) <==>
              s.callbacksSet && value.Some? && |value.value| > 0 && t == value.value[0]
    ensures forall m :: !Notified(o, ErrorReported(m))
  {
    if value.Some? && |value.value| > 0 && s.callbacksSet then
      Out(s, [Notify(TranscriptReady(value.value[0]))])
    else
      Out(s, [])
  }

  /** `onSpeechPartialResults`: interim hypotheses are only logged. */
  function OnSpeechPartialResults(s: Recognizer, value: Option<seq<string>>): (o: Out)
    ensures o.state == s && forall n :: !Notified(o, n)
  {
    Out(s, [])
  }

  /** The `error` object of a recogniser error event; `message` is `None`
      when absent, and an empty message is falsy too. */
  datatype SpeechError = SpeechError(code: string, message: Option<string>)

  /** The message `onSpeechError` reports: codes "7", "6" and "5" have fixed
      texts, other codes report "Speech recognition error: " followed by the
      error's message, or by its code when the message is falsy; an event
      without an error object reports "Speech recognition failed". */
  function ErrorMessage(e: Option<SpeechError>): (m: string)
    ensures e.None? ==> m == MissingErrorMessage
    ensures e.Some? && e.value.code == "7" ==> m == NoMatchMessage
    ensures e.Some? && e.value.code == "6" ==> m == TimeoutMessage
    ensures e.Some? && e.value.code == "5" ==> m == ClientErrorMessage
    ensures e.Some? && e.value.code !in {"5", "6", "7"} ==>
              GenericErrorPrefix <= m
              && (Truthy(e.value.message) ==> m[|GenericErrorPrefix|..] == e.value.message.value)
              && (!Truthy(e.value.message) ==> m[|GenericErrorPrefix|..] == e.value.code)
  {
    match e
    case None => MissingErrorMessage
    case Some(err) =>
      if err.code == "7" then NoMatchMessage
      else if err.code == "6" then TimeoutMessage
      else if err.code == "5" then ClientErrorMessage
      else GenericErrorPrefix + OrElse(err.message, err.code)
  }

  /** The caller can tell the known codes from the generic case: none of the
      fixed messages carries the generic prefix. */
  lemma ErrorMessagesDistinguishable(e: Option<SpeechError>)
    requires e.None? || e.value.code in {"5", "6", "7"}
    ensures !(GenericErrorPrefix <= ErrorMessage(e))
  {
    var m := ErrorMessage(e);
    if e.None? {
      assert m[19] != GenericErrorPrefix[19];
    } else if e.value.code == "6" {
      assert m[7] != GenericErrorPrefix[7];
    } else {
      assert m[0] != GenericErrorPrefix[0];
    }
  }

  /** `onSpeechError`: the service stops listening and reports the mapped
      message through the error callback, if registered. */
  function OnSpeechError(s: Recognizer, e: Option<SpeechError>): (o: Out)
    ensures !o.state.isListening && o.state.callbacksSet == s.callbacksSet
    ensures forall m :: Notified(o, ErrorReported(m)) <==> s.callbacksSet && m == ErrorMessage(e)
    ensures forall t :: !Notified(o, TranscriptReady(t))
  {
    var st := s.(isListening := false);
    if s.callbacksSet then Out(st, [Notify(ErrorReported(ErrorMessage(e)))]) else Out(st, [])
  }
}

=== FILE: strings.dfy ===
/** Character classes and trimming as JavaScript and Python define them.
    Dafny's `char` is a Unicode scalar value; the JavaScript sources work on
    UTF-16 code units, which differ only for supplementary characters, and no
    surrogate code unit belongs to any class defined here. */
module Strings {
  import opened Wrappers

  /** A string-valued field of a parsed JSON object or a JavaScript error,
      as a condition: absent (`None`) and empty are both falsy. */
  predicate Truthy(v: Option<string>) {
    v.Some? && v.value != []
  }

  /** JavaScript's `a || b` with a string field on the left. */
  function OrElse(a: Option<string>, b: string): (r: string)
    ensures Truthy(a) ==> r == a.value
    ensures !Truthy(a) ==> r == b
  {
    if Truthy(a) then a.value else b
  }

  /** The JavaScript class `\s` and the set `String.prototype.trim` removes:
      WhiteSpace (section 12.2 of ECMA-262) and LineTerminator (section 12.3),
      with the space separators (category Zs) spelled out. */
  predicate IsJsSpace(c: char) {
    || c == '\t' || c == '\n' || c == '\U{000B}' || c == '\U{000C}' || c == '\r'
    || c == ' ' || c == '\U{00A0}' || c == '\U{1680}'
    || ('\U{2000}' <= c <= '\U{200A}')
    || c == '\U{2028}' || c == '\U{2029}' || c == '\U{202F}' || c == '\U{205F}'
    || c == '\U{3000}' || c == '\U{FEFF}'
  }

  /** Python's `str.isspace()`, the set `str.strip()` removes: bidirectional
      classes WS, B and S plus category Zs.  Unlike JavaScript it includes
      U+001C..U+001F and U+0085 and excludes U+FEFF. */
  predicate IsPySpace(c: char) {
    || ('\t' <= c <= '\r')
    || ('\U{001C}' <= c <= '\U{001F}')
    || c == ' ' || c == '\U{0085}' || c == '\U{00A0}' || c == '\U{1680}'
    || ('\U{2000}' <= c <= '\U{200A}')
    || c == '\U{2028}' || c == '\U{2029}' || c == '\U{202F}' || c == '\U{205F}'
    || c == '\U{3000}'
  }

  predicate IsAsciiLetter(c: char) {
    ('a' <= c <= 'z') || ('A' <= c <= 'Z')
  }

  predicate IsAsciiDigit(c: char) {
    '0' <= c <= '9'
  }

  /** Number of leading characters of `s` that satisfy `p`. */
  function LeadLen(s: string, p: char -> bool): (n: nat)
    ensures n <= |s|
    ensures forall k :: 0 <= k < n ==> p(s[k])
    ensures n < |s| ==> !p(s[n])
  {
    if s == [] || !p(s[0]) then 0 else 1 + LeadLen(s[1..], p)
  }

  /** Length of `s` once its trailing characters satisfying `p` are cut. */
  function KeepLen(s: string, p: char -> bool): (n: nat)
    ensures n <= |s|
    ensures forall k :: n <= k < |s| ==> p(s[k])
    ensures n > 0 ==> !p(s[n - 1])
  {
    if s == [] || !p(s[|s| - 1]) then |s| else KeepLen(s[..|s| - 1], p)
  }

  /** `s` with the characters satisfying `p` removed from both ends: the
      result is the slice `s[i..i + |r|]`, everything outside the slice
      satisfies `p`, and a non-empty result starts and ends with a character
      that does not. */
  function Trim(s: string, p: char -> bool): (r: string)
    ensures exists i: nat :: (OccursAt(s, r, i)
                              && (forall k :: 0 <= k < i ==> p(s[k]))
                              && (forall k :: i + |r| <= k < |s| ==> p(s[k])))
    ensures r != [] ==> !p(r[0]) && !p(r[|r| - 1])
    ensures r == [] <==> forall k :: 0 <= k < |s| ==> p(s[k])
  {
    var i := LeadLen(s, p);
    var n := KeepLen(s[i..], p);
    var r := s[i..i + n];
    assert OccursAt(s, r, i);
    assert forall k :: i + n <= k < |s| ==> p(s[k]) by {
      forall k | i + n <= k < |s| ensures p(s[k]) {
        assert s[k] == s[i..][k - i];
      }
    }
    assert n > 0 ==> r[0] == s[i] && r[n - 1] == s[i..][n - 1];
    r
  }

  /** A string with no character satisfying `p` is its own trim. */
  lemma TrimNoop(s: string, p: char -> bool)
    requires forall k :: 0 <= k < |s| ==> !p(s[k])
    ensures Trim(s, p) == s
  {
  }

  /** JavaScript `String.prototype.trim`. */
  function JsTrim(s: string): string {
    Trim(s, IsJsSpace)
  }

  /** Python `str.strip()` with no argument. */
  function PyStrip(s: string): string {
    Trim(s, IsPySpace)
  }

  /** ASCII lower-casing.  Python's `str.lower` also maps non-ASCII letters,
      but the only non-ASCII characters it maps into ASCII are U+0130 and
      U+212A, which lower to `i` (plus a combining dot) and `k`, neither of
      which occurs in the keywords this model searches for. */
  function LowerChar(c: char): char {
    if 'A' <= c <= 'Z' then (c as int + 32) as char else c
  }

  function Lower(s: string): (r: string)
    ensures |r| == |s|
    ensures forall i :: 0 <= i < |s| ==> r[i] == LowerChar(s[i])
  {
    seq(|s|, i requires 0 <= i < |s| => LowerChar(s[i]))
  }

  /** `t` occurs in `s` starting at index `i`. */
  predicate OccursAt(s: string, t: string, i: nat) {
    i + |t| <= |s| && s[i..i + |t|] == t
  }

  /** Python's `t in s` for strings. */
  predicate Contains(s: string, t: string) {
    exists i: nat :: i <= |s| && OccursAt(s, t, i)
  }

  /** The text before the first `'\n'`: Python's `s.split('\n')[0]`. */
  function FirstLine(s: string): (r: string)
    ensures |r| <= |s| && r == s[..|r|]
    ensures '\n' !in r
    ensures |r| < |s| ==> s[|r|] == '\n'
  {
    if s == [] || s[0] == '\n' then [] else [s[0]] + FirstLine(s[1..])
  }

  /** Joins `parts` with `sep` between consecutive elements: Python's
      `sep.join(parts)`. */
  function Join(parts: seq<string>, sep: string): (r: string)
    ensures parts == [] ==> r == []
    ensures |parts| == 1 ==> r == parts[0]
  {
    if parts == [] then []
    else if |parts| == 1 then parts[0]
    else parts[0] + sep + Join(parts[1..], sep)
  }
}

=== FILE: text_to_speech.dfy ===
/** The React Native text-to-speech service `TextToSpeechService`: a
    filter-and-gate in front of the platform engine.  Engine calls are an
    output trace; the speech rate is an opaque number the engine
    interprets. */
module TextToSpeech {
  import opened ChineseDetector

  const DefaultRate: real := 0.8
  const SpeechLocale: string := "zh-CN"

  /** The service's only state: the rate the next utterance uses. */
  datatype Tts = Tts(rate: real)

  function InitialTts(): Tts {
    Tts(DefaultRate)
  }

  datatype EngineCall = EngineStop | EngineSpeak(text: string, language: string, rate: real)

  /** Whether the awaited engine `stop` resolves or rejects. */
  datatype EngineOutcome = EngineOk | EngineRejected

  /** `speak`: the text is filtered with the `extractChinese` class (the
      service repeats the same regular expression); nothing reaches the
      engine when the filtered text is empty; otherwise `stop` is issued
      strictly before a single `speak` of the filtered text with locale
      `zh-CN` and the current rate.  A rejected `stop` is caught and skips
      the `speak`.  No engine failure escapes: the result is only the
      trace. */
  function Speak(t: Tts, text: string, stopOutcome: EngineOutcome): (calls: seq<EngineCall>)
    ensures calls == [] <==> Kept(text) == []
    ensures calls != [] ==> calls[0] == EngineStop
    ensures |calls| <= 2 && (|calls| == 2 ==> calls[1] == EngineSpeak(Kept(text), SpeechLocale, t.rate))
    ensures |calls| == 2 <==> Kept(text) != [] && stopOutcome.EngineOk?
  {
    var chineseOnly := ExtractChinese(text);
    if chineseOnly == [] then []
    else if stopOutcome.EngineRejected? then [EngineStop]
    else [EngineStop, EngineSpeak(chineseOnly, SpeechLocale, t.rate)]
  }

  /** `setRate`: the stored rate is the one set last; the next utterance
      uses it (`SpeakUsesLatestRate`). */
  function SetRate(t: Tts, rate: real): (r: Tts)
    ensures r.rate == rate
  {
    t.(rate := rate)
  }

  /** `stop`: one engine call; a rejection is caught. */
  function Stop(t: Tts, outcome: EngineOutcome): (calls: seq<EngineCall>)
    ensures calls == [EngineStop]
  {
    [EngineStop]
  }

  /** After `setRate(r)`, the next utterance is spoken at `r`; the service
      starts at the default rate. */
  lemma SpeakUsesLatestRate(t: Tts, r: real, text: string)
    requires Kept(text) != []
    ensures Speak(SetRate(t, r), text, EngineOk)[1].rate == r
    ensures Speak(InitialTts(), text, EngineOk)[1].rate == DefaultRate
  {
  }
}

=== FILE: use_conversation.dfy ===
/** The React Native conversation hook `useConversation`.  Each operation
    reads the state as it is when called and returns the ordered trace of
    what it does: reducer dispatches and external effects (transport calls
    with their arguments, speech requests, scheduled correction clears).
    The state afterwards is the trace replayed through the reducer.  The
    transport's answer and the clock are inputs. */
module UseConversation {
  import opened Wrappers
  import opened Strings
  import opened MessageTypes
  import opened AppContext

  const CorrectionDisplayMs: nat := 10000
  const FallbackText: string := "抱歉，出现了错误。请再试一次。"
  const FallbackTranslation: string := "Sorry, there was an error. Please try again."

  datatype Effect =
    | ChatRequest(message: string, history: seq<Message>)
    | TopicRequest
    | Speak(text: string)
    | ScheduleCorrectionClear(delayMs: nat)

  datatype Step = Dispatch(action: Action) | Perform(effect: Effect)

  datatype ChatOutcome = ChatSucceeded(reply: ChatReply) | ChatFailed

  datatype TopicOutcome = TopicSucceeded(topic: string) | TopicFailed

  function Apply(s: AppState, x: Step): AppState {
    match x
    case Dispatch(a) => Reduce(s, a)
    case Perform(_) => s
  }

  /** The state after replaying a trace. */
  function Run(s: AppState, t: seq<Step>): AppState
    decreases |t|
  {
    if t == [] then s else Apply(Run(s, t[..|t| - 1]), t[|t| - 1])
  }

  lemma {:induction false} RunAppend(s: AppState, a: seq<Step>, b: seq<Step>)
    ensures Run(s, a + b) == Run(Run(s, a), b)
    decreases |b|
  {
    if b == [] {
      assert a + b == a;
    } else {
      assert (a + b)[..|a + b| - 1] == a + b[..|b| - 1];
      RunAppend(s, a, b[..|b| - 1]);
    }
  }

  lemma RunOne(s: AppState, x: Step)
    ensures Run(s, [x]) == Apply(s, x)
  {
    assert [x][..0] == [];
  }

  lemma RunTwo(s: AppState, x: Step, y: Step)
    ensures Run(s, [x, y]) == Apply(Apply(s, x), y)
  {
    assert [x, y] == [x] + [y];
    RunAppend(s, [x], [y]);
    RunOne(s, x);
    RunOne(Apply(s, x), y);
  }

  /** A trace without dispatches leaves the state alone. */
  lemma {:induction false} RunEffectsOnly(s: AppState, t: seq<Step>)
    requires forall i :: 0 <= i < |t| ==> t[i].Perform?
    ensures Run(s, t) == s
    decreases |t|
  {
    if t != [] {
      RunEffectsOnly(s, t[..|t| - 1]);
    }
  }

  /** The AI message a chat outcome produces. */
  function ReplyMessage(outcome: ChatOutcome, replyTime: Timestamp): Message {
    match outcome
    case ChatFailed => Message(Ai, FallbackText, Some(FallbackTranslation), replyTime)
    case ChatSucceeded(reply) => Message(Ai, reply.response, reply.translation, replyTime)
  }

  /** The correction on screen after a chat outcome. */
  function CorrectionAfter(outcome: ChatOutcome, current: Option<Correction>): Option<Correction> {
    if outcome.ChatSucceeded? && outcome.reply.correction.Some? then outcome.reply.correction else current
  }

  /** `sendMessage` refuses while a request is in flight or when the text
      is blank after trimming. */
  predicate SendAccepted(s: AppState, message: string) {
    !s.isProcessing && JsTrim(message) != []
  }

  /** A successful reply that carries a correction. */
  predicate CorrectionArrives(outcome: ChatOutcome) {
    outcome.ChatSucceeded? && outcome.reply.correction.Some?
  }

  /** A successful, non-empty reply with auto-speak on is spoken. */
  predicate ReplySpoken(autoSpeak: bool, outcome: ChatOutcome) {
    outcome.ChatSucceeded? && autoSpeak && outcome.reply.response != []
  }

  /** The trace after the transport call: the AI message, then on a
      correction the correction and its 10-second clear, then the optional
      speech request.  A failure appends the fixed bilingual message. */
  function SettleChat(autoSpeak: bool, outcome: ChatOutcome, replyTime: Timestamp): seq<Step> {
    [Dispatch(AddMessage(ReplyMessage(outcome, replyTime)))]
    + (if CorrectionArrives(outcome) then
         [Dispatch(SetCorrection(outcome.reply.correction)), Perform(ScheduleCorrectionClear(CorrectionDisplayMs))]
       else [])
    + (if ReplySpoken(autoSpeak, outcome) then [Perform(Speak(outcome.reply.response))] else [])
  }

  lemma SettleChatRun(s: AppState, outcome: ChatOutcome, replyTime: Timestamp)
    ensures Run(s, SettleChat(s.autoSpeak, outcome, replyTime))
         == s.(history := s.history + [ReplyMessage(outcome, replyTime)],
               currentCorrection := CorrectionAfter(outcome, s.currentCorrection))
  {
    var add := [Dispatch(AddMessage(ReplyMessage(outcome, replyTime)))];
    var corr := if CorrectionArrives(outcome) then
         [Dispatch(SetCorrection(outcome.reply.correction)), Perform(ScheduleCorrectionClear(CorrectionDisplayMs))]
       else [];
    var speak := if ReplySpoken(s.autoSpeak, outcome) then [Perform(Speak(outcome.reply.response))] else [];
    assert SettleChat(s.autoSpeak, outcome, replyTime) == add + corr + speak;
    RunAppend(s, add + corr, speak);
    RunAppend(s, add, corr);
    RunOne(s, add[0]);
    if corr != [] {
      RunTwo(Run(s, add), corr[0], corr[1]);
    }
    RunEffectsOnly(Run(s, add + corr), speak);
  }

  /** `sendMessage`.  An accepted send appends the user's untrimmed text,
      clears the recorded transcript and raises the processing flag, and
      only then calls the transport, handing it the history as it was
      before the user message was added.  It always ends with the history
      two longer (the user message, then the reply or the fixed fallback)
      and the flag lowered.  A reply with a correction shows it and
      schedules one clear after 10000 ms; the reply is spoken iff auto-speak
      is on and the reply text is non-empty. */
  function SendMessage(s: AppState, message: string, userTime: Timestamp, replyTime: Timestamp, outcome: ChatOutcome): (t: seq<Step>)
    ensures !SendAccepted(s, message) ==> t == []
    ensures SendAccepted(s, message) ==>
      && |t| >= 6
      && t[0] == Dispatch(AddMessage(Message(User, message, None, userTime)))
      && t[1] == Dispatch(SetRecordedMessage([]))
      && t[2] == Dispatch(SetProcessing(true))
      && t[3] == Perform(ChatRequest(message, s.history))
      && t[|t| - 1] == Dispatch(SetProcessing(false))
    ensures forall i :: 0 <= i < |t| && t[i].Perform? && t[i].effect.ChatRequest? ==> i == 3
    ensures SendAccepted(s, message) ==>
      var r := Run(s, t);
      && |r.history| == |s.history| + 2 && r.history[..|s.history|] == s.history
      && r.history[|s.history|] == Message(User, message, None, userTime)
      && r.history[|s.history| + 1] == ReplyMessage(outcome, replyTime)
      && !r.isProcessing && r.recordedMessage == []
      && r.autoSpeak == s.autoSpeak && r.isRecording == s.isRecording
      && r.currentCorrection == CorrectionAfter(outcome, s.currentCorrection)
    ensures Perform(ScheduleCorrectionClear(CorrectionDisplayMs)) in t <==>
              SendAccepted(s, message) && CorrectionArrives(outcome)
    ensures forall x :: Perform(Speak(x)) in t <==>
              SendAccepted(s, message) && ReplySpoken(s.autoSpeak, outcome) && x == outcome.reply.response
    ensures SendAccepted(s, message) ==>
      && |t| == 6 + (if CorrectionArrives(outcome) then 2 else 0) + (if ReplySpoken(s.autoSpeak, outcome) then 1 else 0)
      && t[4] == Dispatch(AddMessage(ReplyMessage(outcome, replyTime)))
      && (CorrectionArrives(outcome) ==>
            t[5] == Dispatch(SetCorrection(outcome.reply.correction))
            && t[6] == Perform(ScheduleCorrectionClear(CorrectionDisplayMs)))
      && (ReplySpoken(s.autoSpeak, outcome) ==> t[|t| - 2] == Perform(Speak(outcome.reply.response)))
    ensures forall i :: 0 <= i < |t| && t[i].Perform? ==>
              i == 3 || t[i] == Perform(ScheduleCorrectionClear(CorrectionDisplayMs))
              || (outcome.ChatSucceeded? && t[i] == Perform(Speak(outcome.reply.response)))
  {
    if !SendAccepted(s, message) then []
    else
      var user := Message(User, message, None, userTime);
      var begin := [Dispatch(AddMessage(user)), Dispatch(SetRecordedMessage([])),
                    Dispatch(SetProcessing(true)), Perform(ChatRequest(message, s.history))];
      var settle := SettleChat(s.autoSpeak, outcome, replyTime);
      var t := begin + settle + [Dispatch(SetProcessing(false))];
      SendMessageRun(s, begin, settle, t, user, outcome, replyTime);
      SendMessageEffects(s, begin, settle, t, user, outcome, replyTime);
      t
  }

  lemma SendMessageRun(s: AppState, begin: seq<Step>, settle: seq<Step>, t: seq<Step>,
                       user: Message, outcome: ChatOutcome, replyTime: Timestamp)
    requires begin == [Dispatch(AddMessage(user)), Dispatch(SetRecordedMessage([])),
                       Dispatch(SetProcessing(true)), Perform(ChatRequest(user.message, s.history))]
    requires settle == SettleChat(s.autoSpeak, outcome, replyTime)
    requires t == begin + settle + [Dispatch(SetProcessing(false))]
    ensures Run(s, t) == s.(history := s.history + [user, ReplyMessage(outcome, replyTime)],
                            recordedMessage := [], isProcessing := false,
                            currentCorrection := CorrectionAfter(outcome, s.currentCorrection))
  {
    assert begin == [begin[0], begin[1]] + [begin[2], begin[3]];
    RunAppend(s, [begin[0], begin[1]], [begin[2], begin[3]]);
    RunTwo(s, begin[0], begin[1]);
    RunTwo(Run(s, [begin[0], begin[1]]), begin[2], begin[3]);
    var s1 := Run(s, begin);
    assert s1 == s.(history := s.history + [user], recordedMessage := [], isProcessing := true);
    SettleChatRun(s1, outcome, replyTime);
    RunAppend(s, begin, settle);
    RunAppend(s, begin + settle, [Dispatch(SetProcessing(false))]);
    RunOne(Run(s, begin + settle), Dispatch(SetProcessing(false)));
    assert s.history + [user] + [ReplyMessage(outcome, replyTime)] == s.history + [user, ReplyMessage(outcome, replyTime)];
  }

  lemma SendMessageEffects(s: AppState, begin: seq<Step>, settle: seq<Step>, t: seq<Step>,
                           user: Message, outcome: ChatOutcome, replyTime: Timestamp)
    requires begin == [Dispatch(AddMessage(user)), Dispatch(SetRecordedMessage([])),
                       Dispatch(SetProcessing(true)), Perform(ChatRequest(user.message, s.history))]
    requires settle == SettleChat(s.autoSpeak, outcome, replyTime)
    requires t == begin + settle + [Dispatch(SetProcessing(false))]
    ensures forall i :: 0 <= i < |t| && t[i].Perform? && t[i].effect.ChatRequest? ==> i == 3
    ensures Perform(ScheduleCorrectionClear(CorrectionDisplayMs)) in t <==> CorrectionArrives(outcome)
    ensures forall x :: Perform(Speak(x)) in t <==> ReplySpoken(s.autoSpeak, outcome) && x == outcome.reply.response
    ensures |t| == 6 + (if CorrectionArrives(outcome) then 2 else 0) + (if ReplySpoken(s.autoSpeak, outcome) then 1 else 0)
    ensures t[4] == Dispatch(AddMessage(ReplyMessage(outcome, replyTime)))
    ensures CorrectionArrives(outcome) ==>
              t[5] == Dispatch(SetCorrection(outcome.reply.correction))
              && t[6] == Perform(ScheduleCorrectionClear(CorrectionDisplayMs))
    ensures ReplySpoken(s.autoSpeak, outcome) ==> t[|t| - 2] == Perform(Speak(outcome.reply.response))
    ensures forall i :: 0 <= i < |t| && t[i].Perform? ==>
              i == 3 || t[i] == Perform(ScheduleCorrectionClear(CorrectionDisplayMs))
              || (outcome.ChatSucceeded? && t[i] == Perform(Speak(outcome.reply.response)))
  {
    var add := [Dispatch(AddMessage(ReplyMessage(outcome, replyTime)))];
    var corr := if CorrectionArrives(outcome) then
         [Dispatch(SetCorrection(outcome.reply.correction)), Perform(ScheduleCorrectionClear(CorrectionDisplayMs))]
       else [];
    var speak := if ReplySpoken(s.autoSpeak, outcome) then [Perform(Speak(outcome.reply.response))] else [];
    assert settle == add + corr + speak;
    assert t == begin + add + corr + speak + [Dispatch(SetProcessing(false))];
  }

  /** The trace of `getRandomTopic` after the transport call: on success
      one AI message holding the topic and no translation, spoken when
      auto-speak is on; on failure nothing (the error is only logged). */
  function SettleTopic(autoSpeak: bool, outcome: TopicOutcome, replyTime: Timestamp): seq<Step> {
    match outcome
    case TopicFailed => []
    case TopicSucceeded(topic) =>
      [Dispatch(AddMessage(Message(Ai, topic, None, replyTime)))]
      + (if autoSpeak then [Perform(Speak(topic))] else [])
  }

  /** `getRandomTopic`: a no-op while processing; otherwise it raises the
      flag, calls the topic endpoint once, appends exactly one AI message
      on success and nothing on failure, and always lowers the flag. */
  function GetRandomTopic(s: AppState, outcome: TopicOutcome, replyTime: Timestamp): (t: seq<Step>)
    ensures s.isProcessing ==> t == []
    ensures !s.isProcessing ==>
      && |t| >= 3
      && t[0] == Dispatch(SetProcessing(true)) && t[1] == Perform(TopicRequest)
      && t[|t| - 1] == Dispatch(SetProcessing(false))
    ensures !s.isProcessing ==>
      var r := Run(s, t);
      && !r.isProcessing
      && s.history <= r.history
      && (outcome.TopicFailed? ==> r.history == s.history)
      && (outcome.TopicSucceeded? ==>
            |r.history| == |s.history| + 1
            && r.history[|s.history|] == Message(Ai, outcome.topic, None, replyTime))
      && r.currentCorrection == s.currentCorrection && r.autoSpeak == s.autoSpeak
      && r.recordedMessage == s.recordedMessage && r.isRecording == s.isRecording
    ensures forall x :: Perform(Speak(x)) in t <==>
              !s.isProcessing && outcome.TopicSucceeded? && s.autoSpeak && x == outcome.topic
    ensures forall k :: 0 <= k < |t| && t[k] == Perform(TopicRequest) ==> k == 1
    ensures !s.isProcessing ==>
      && |t| == 3 + (if outcome.TopicSucceeded? then 1 else 0) + (if outcome.TopicSucceeded? && s.autoSpeak then 1 else 0)
      && (outcome.TopicSucceeded? ==> t[2] == Dispatch(AddMessage(Message(Ai, outcome.topic, None, replyTime))))
      && (outcome.TopicSucceeded? && s.autoSpeak ==> t[3] == Perform(Speak(outcome.topic)))
    ensures forall i :: 0 <= i < |t| && t[i].Perform? ==>
              i == 1 || (outcome.TopicSucceeded? && t[i] == Perform(Speak(outcome.topic)))
  {
    if s.isProcessing then []
    else
      var begin := [Dispatch(SetProcessing(true)), Perform(TopicRequest)];
      var settle := SettleTopic(s.autoSpeak, outcome, replyTime);
      var t := begin + settle + [Dispatch(SetProcessing(false))];
      GetRandomTopicRun(s, begin, settle, t, outcome, replyTime);
      t
  }

  lemma GetRandomTopicRun(s: AppState, begin: seq<Step>, settle: seq<Step>, t: seq<Step>,
                          outcome: TopicOutcome, replyTime: Timestamp)
    requires begin == [Dispatch(SetProcessing(true)), Perform(TopicRequest)]
    requires settle == SettleTopic(s.autoSpeak, outcome, replyTime)
    requires t == begin + settle + [Dispatch(SetProcessing(false))]
    ensures Run(s, t) == s.(history := s.history + (if outcome.TopicSucceeded?
                                                    then [Message(Ai, outcome.topic, None, replyTime)] else []),
                            isProcessing := false)
  {
    RunTwo(s, begin[0], begin[1]);
    var s1 := Run(s, begin);
    if outcome.TopicSucceeded? {
      var add := [Dispatch(AddMessage(Message(Ai, outcome.topic, None, replyTime)))];
      var speak := if s.autoSpeak then [Perform(Speak(outcome.topic))] else [];
      assert settle == add + speak;
      RunAppend(s1, add, speak);
      RunOne(s1, add[0]);
      RunEffectsOnly(Run(s1, add), speak);
    }
    RunAppend(s, begin, settle);
    RunAppend(s, begin + settle, [Dispatch(SetProcessing(false))]);
    RunOne(Run(s, begin + settle), Dispatch(SetProcessing(false)));
  }

  /** `repeatLastMessage`: speaks the most recent AI message, or does
      nothing when there is none; it never changes the state. */
  function RepeatLastMessage(s: AppState): (t: seq<Step>)
    ensures Run(s, t) == s
    ensures t == [] <==> forall i :: 0 <= i < |s.history| ==> s.history[i].sender != Ai
    ensures t != [] ==> exists i :: (0 <= i < |s.history| && s.history[i].sender == Ai
                                     && (forall j :: i < j < |s.history| ==> s.history[j].sender != Ai)
                                     && t == [Perform(Speak(s.history[i].message))])
  {
    match LastAiText(s.history)
    case None => []
    case Some(text) =>
      RunOne(s, Perform(Speak(text)));
      [Perform(Speak(text))]
  }

  /** `clearConversation`: one dispatch that empties the history and drops
      the correction, leaving the flags and the recorded transcript. */
  function ClearConversation(s: AppState): (t: seq<Step>)
    ensures var r := Run(s, t);
      && r.history == [] && r.currentCorrection.None?
      && r.isProcessing == s.isProcessing && r.autoSpeak == s.autoSpeak
      && r.recordedMessage == s.recordedMessage && r.isRecording == s.isRecording
    ensures forall i :: 0 <= i < |t| ==> t[i].Dispatch?
  {
    RunOne(s, Dispatch(AppContext.ClearConversation));
    [Dispatch(AppContext.ClearConversation)]
  }

  /** Clearing twice is clearing once. */
  lemma ClearConversationIdempotent(s: AppState)
    ensures var r := Run(s, ClearConversation(s));
            Run(r, ClearConversation(r)) == r
  {
    var r := Run(s, ClearConversation(s));
    var r2 := Run(r, ClearConversation(r));
    assert r2.history == r.history && r2.currentCorrection == r.currentCorrection;
  }

  /** `toggleAutoSpeak`: one dispatch that flips the preference. */
  function ToggleAutoSpeak(s: AppState): (t: seq<Step>)
    ensures Run(s, t).autoSpeak == !s.autoSpeak
    ensures Run(s, t).(autoSpeak := s.autoSpeak) == s
  {
    RunOne(s, Dispatch(AppContext.ToggleAutoSpeak));
    [Dispatch(AppContext.ToggleAutoSpeak)]
  }

  /** Toggling twice restores the state. */
  lemma ToggleAutoSpeakTwice(s: AppState)
    ensures var r := Run(s, ToggleAutoSpeak(s));
            Run(r, ToggleAutoSpeak(r)) == s
  {
  }

  /** The scheduled clear when it fires: it is never cancelled, so it drops
      whatever correction is current at that moment. */
  function CorrectionTimerFired(s: AppState): (r: AppState)
    ensures r.currentCorrection.None?
    ensures r.(currentCorrection := s.currentCorrection) == s
  {
    Reduce(s, SetCorrection(None))
  }

  /** Two replies with corrections in a row.  Scheduled clears carry no
      identity in the model; what matters is that no step of the hook
      cancels one.  The first reply's clear is still pending while the
      second correction is shown, and, both being 10000 ms after their
      replies, it fires first and removes that second correction. */
  lemma StaleClearDropsNewerCorrection(s: AppState, m1: string, m2: string, t1: Timestamp, t2: Timestamp,
                                       c1: Correction, c2: Correction, r1: string, r2: string)
    requires SendAccepted(s, m1) && JsTrim(m2) != []
    ensures var o1 := ChatSucceeded(ChatReply(r1, None, Some(c1)));
            var o2 := ChatSucceeded(ChatReply(r2, None, Some(c2)));
            var a := Run(s, SendMessage(s, m1, t1, t1, o1));
            var b := Run(a, SendMessage(a, m2, t2, t2, o2));
            && Perform(ScheduleCorrectionClear(CorrectionDisplayMs)) in SendMessage(s, m1, t1, t1, o1)
            && b.currentCorrection == Some(c2)
            && CorrectionTimerFired(b).currentCorrection.None?
  {
  }
}

=== FILE: use_voice_recording.dfy ===
/** The React Native recording hook `useVoiceRecording`: the app store, the
    hook's local error text and the speech-capture service it owns.  Each
    operation returns the ordered trace of store dispatches, error updates
    and native recogniser calls; the service's callback notifications are
    turned into the hook's own dispatches at the point they occur. */
module UseVoiceRecording {
  import opened Wrappers
  import opened AppContext
  import SR = SpeechRecognition

  datatype Hook = Hook(app: AppState, error: Option<string>, service: SR.Recognizer)

  datatype HookStep = Dispatch(action: Action) | SetError(error: Option<string>) | NativeCall(call: SR.VoiceCall)

  datatype Result = Result(hook: Hook, trace: seq<HookStep>)

  function ApplyStep(h: Hook, x: HookStep): Hook {
    match x
    case Dispatch(a) => h.(app := Reduce(h.app, a))
    case SetError(e) => h.(error := e)
    case NativeCall(_) => h
  }

  /** The hook after replaying a trace. */
  function Replay(h: Hook, t: seq<HookStep>): Hook
    decreases |t|
  {
    if t == [] then h else ApplyStep(Replay(h, t[..|t| - 1]), t[|t| - 1])
  }

  lemma {:induction false} ReplayAppend(h: Hook, a: seq<HookStep>, b: seq<HookStep>)
    ensures Replay(h, a + b) == Replay(Replay(h, a), b)
    decreases |b|
  {
    if b == [] {
      assert a + b == a;
    } else {
      assert (a + b)[..|a + b| - 1] == a + b[..|b| - 1];
      ReplayAppend(h, a, b[..|b| - 1]);
    }
  }

  /** The callbacks `startRecording` registers: a transcript replaces the
      recorded message; an error is stored and recording is switched off. */
  function Deliver(e: SR.Event): seq<HookStep> {
    match e
    case Native(c) => [NativeCall(c)]
    case Notify(n) =>
      match n
      case TranscriptReady(t) => [Dispatch(SetRecordedMessage(t))]
      case ErrorReported(m) => [SetError(Some(m)), Dispatch(SetRecording(false))]
  }

  function Interpret(events: seq<SR.Event>): seq<HookStep>
    decreases |events|
  {
    if events == [] then [] else Interpret(events[..|events| - 1]) + Deliver(events[|events| - 1])
  }

  /** Native calls alone leave the hook's own state alone. */
  lemma {:induction false} InterpretNatives(h: Hook, events: seq<SR.Event>)
    requires forall i :: 0 <= i < |events| ==> events[i].Native?
    ensures Replay(h, Interpret(events)) == h
    decreases |events|
  {
    if events != [] {
      var last := events[|events| - 1];
      InterpretNatives(h, events[..|events| - 1]);
      ReplayAppend(h, Interpret(events[..|events| - 1]), Deliver(last));
      assert Deliver(last) == [NativeCall(last.call)];
      assert [NativeCall(last.call)][..0] == [];
    }
  }

  /** Native calls followed by one notification act as that notification. */
  lemma NativesThenNotify(h: Hook, natives: seq<SR.Event>, n: SR.Notification)
    requires forall i :: 0 <= i < |natives| ==> natives[i].Native?
    ensures Replay(h, Interpret(natives + [SR.Notify(n)])) == Replay(h, Deliver(SR.Notify(n)))
  {
    var events := natives + [SR.Notify(n)];
    assert events[..|events| - 1] == natives;
    InterpretNatives(h, natives);
    ReplayAppend(h, Interpret(natives), Deliver(SR.Notify(n)));
  }

  lemma ReplayOne(h: Hook, x: HookStep)
    ensures Replay(h, [x]) == ApplyStep(h, x)
  {
    assert [x][..0] == [];
  }

  lemma ReplayTwo(h: Hook, x: HookStep, y: HookStep)
    ensures Replay(h, [x, y]) == ApplyStep(ApplyStep(h, x), y)
  {
    assert [x, y] == [x] + [y];
    ReplayAppend(h, [x], [y]);
    ReplayOne(h, x);
    ReplayOne(ApplyStep(h, x), y);
  }

  /** `startRecording`: the error is cleared and recording is switched on
      before the service is invoked.  A successful start ends recording
      with no error; an unavailable module or a failed start ends with the
      service's message stored and recording off.  The recorded message and
      the history are never touched. */
  function StartRecording(h: Hook, available: bool, fault: SR.StartFault): (r: Result)
    ensures |r.trace| >= 2 && r.trace[0] == SetError(None) && r.trace[1] == Dispatch(SetRecording(true))
    ensures forall i :: 0 <= i < |r.trace| && r.trace[i].NativeCall? ==> i >= 2
    ensures available && fault.StartOk? ==>
              r.hook.app.isRecording && r.hook.error.None? && r.hook.service.isListening
    ensures !available ==>
              !r.hook.app.isRecording && r.hook.error == Some(SR.UnavailableMessage) && r.hook.service == h.service
    ensures available && !fault.StartOk? ==>
              && !r.hook.app.isRecording && !r.hook.service.isListening
              && r.hook.error == Some(SR.StartFailedPrefix + SR.ThrownText(fault.e))
    ensures r.hook.app.history == h.app.history && r.hook.app.recordedMessage == h.app.recordedMessage
    ensures r.hook.app.isProcessing == h.app.isProcessing && r.hook.app.autoSpeak == h.app.autoSpeak
    ensures r.hook.service == SR.StartRecording(h.service, available, fault).state
  {
    var pre := [SetError(None), Dispatch(SetRecording(true))];
    var out := SR.StartRecording(h.service, available, fault);
    var h0 := h.(service := out.state);
    var trace := pre + Interpret(out.events);
    ReplayAppend(h0, pre, Interpret(out.events));
    ReplayTwo(h0, pre[0], pre[1]);
    StartEventsReplay(Replay(h0, pre), h.service, available, fault);
    Result(Replay(h0, trace), trace)
  }

  /** A notification-free event list changes nothing; one ending in an
      error report stores the message and switches recording off. */
  lemma StartEventsReplay(h1: Hook, svc: SR.Recognizer, available: bool, fault: SR.StartFault)
    ensures var out := SR.StartRecording(svc, available, fault);
      var r := Replay(h1, Interpret(out.events));
      if available && fault.StartOk? then r == h1
      else r == h1.(error := Some(if available then SR.StartFailedPrefix + SR.ThrownText(fault.e)
                                   else SR.UnavailableMessage),
                    app := Reduce(h1.app, SetRecording(false)))
  {
    var out := SR.StartRecording(svc, available, fault);
    if available && fault.StartOk? {
      InterpretNatives(h1, out.events);
    } else {
      var m := if available then SR.StartFailedPrefix + SR.ThrownText(fault.e) else SR.UnavailableMessage;
      var natives := out.events[..|out.events| - 1];
      assert out.events == natives + [SR.Notify(SR.ErrorReported(m))];
      NativesThenNotify(h1, natives, SR.ErrorReported(m));
      ReplayTwo(h1, SetError(Some(m)), Dispatch(SetRecording(false)));
    }
  }

  /** A final recognition result reaches the hook through the transcript
      callback, which replaces the recorded message with the latest
      transcript rather than appending to it. */
  function SpeechResults(h: Hook, value: Option<seq<string>>): (r: Result)
    ensures h.service.callbacksSet && value.Some? && |value.value| > 0 ==>
              r.hook == h.(app := h.app.(recordedMessage := value.value[0]))
    ensures !(h.service.callbacksSet && value.Some? && |value.value| > 0) ==> r.hook == h
  {
    var out := SR.OnSpeechResults(h.service, value);
    var trace := Interpret(out.events);
    if out.events == [] then
      Result(h, trace)
    else
      assert out.events == [] + [SR.Notify(SR.TranscriptReady(value.value[0]))];
      NativesThenNotify(h, [], SR.TranscriptReady(value.value[0]));
      ReplayOne(h, Dispatch(SetRecordedMessage(value.value[0])));
      Result(Replay(h, trace), trace)
  }

  /** A recogniser error reaches the hook through the error callback: the
      message is stored and recording is switched off; the recorded message
      and the history stay as they were. */
  function SpeechError(h: Hook, e: Option<SR.SpeechError>): (r: Result)
    ensures !r.hook.service.isListening
    ensures h.service.callbacksSet ==>
              && r.hook.error == Some(SR.ErrorMessage(e)) && !r.hook.app.isRecording
              && r.hook.app == h.app.(isRecording := false)
    ensures !h.service.callbacksSet ==> r.hook.app == h.app && r.hook.error == h.error
  {
    var out := SR.OnSpeechError(h.service, e);
    var h0 := h.(service := out.state);
    var trace := Interpret(out.events);
    if out.events == [] then
      Result(h0, trace)
    else
      var m := SR.ErrorMessage(e);
      assert out.events == [] + [SR.Notify(SR.ErrorReported(m))];
      NativesThenNotify(h0, [], SR.ErrorReported(m));
      ReplayTwo(h0, SetError(Some(m)), Dispatch(SetRecording(false)));
      Result(Replay(h0, trace), trace)
  }

  /** `stopRecording`: the service is stopped, then recording is switched
      off.  Nothing is sent: the recorded message and the history are left
      for the user to submit. */
  function StopRecording(h: Hook, stopRejects: bool): (r: Result)
    ensures !r.hook.app.isRecording && !r.hook.service.isListening
    ensures r.hook.app.recordedMessage == h.app.recordedMessage && r.hook.app.history == h.app.history
    ensures r.hook.app.isProcessing == h.app.isProcessing && r.hook.error == h.error
    ensures |r.trace| > 0 && r.trace[|r.trace| - 1] == Dispatch(SetRecording(false))
  {
    var out := SR.StopRecording(h.service, stopRejects);
    var h0 := h.(service := out.state);
    var trace := Interpret(out.events) + [Dispatch(SetRecording(false))];
    InterpretNatives(h0, out.events);
    ReplayAppend(h0, Interpret(out.events), [Dispatch(SetRecording(false))]);
    ReplayOne(h0, Dispatch(SetRecording(false)));
    Result(Replay(h0, trace), trace)
  }

  /** `cancelRecording`: the service is cancelled, recording is switched
      off and the recorded message is discarded; the history is untouched. */
  function CancelRecording(h: Hook, cancelRejects: bool): (r: Result)
    ensures !r.hook.app.isRecording && !r.hook.service.isListening
    ensures r.hook.app.recordedMessage == [] && r.hook.app.history == h.app.history
    ensures r.hook.app.isProcessing == h.app.isProcessing && r.hook.error == h.error
  {
    var out := SR.CancelRecording(h.service, cancelRejects);
    var h0 := h.(service := out.state);
    var tail := [Dispatch(SetRecording(false)), Dispatch(SetRecordedMessage([]))];
    var trace := Interpret(out.events) + tail;
    InterpretNatives(h0, out.events);
    ReplayAppend(h0, Interpret(out.events), tail);
    ReplayTwo(h0, tail[0], tail[1]);
    Result(Replay(h0, trace), trace)
  }

  /** Start, hear "你好", stop: the transcript waits in the recorded message
      and the history is unchanged, because stopping does not send. */
  lemma RecordThenStopKeepsTranscript(h: Hook)
    ensures var a := StartRecording(h, true, SR.StartOk).hook;
            var b := SpeechResults(a, Some(["你好"])).hook;
            var c := StopRecording(b, false).hook;
            && c.app.recordedMessage == "你好" && c.app.history == h.app.history
            && !c.app.isRecording && c.error.None?
  {
  }

  /** Start, hear "测试", cancel: nothing reaches the history and the
      transcript is gone. */
  lemma RecordThenCancelDiscards(h: Hook)
    ensures var a := StartRecording(h, true, SR.StartOk).hook;
            var b := SpeechResults(a, Some(["测试"])).hook;
            var c := CancelRecording(b, false).hook;
            && c.app.recordedMessage == [] && c.app.history == h.app.history && !c.app.isRecording
  {
  }
}

=== FILE: web_client.dfy ===
/** The earlier web client (`app.js`), separated from the DOM.  The state is
    the fields of the `ChineseLanguageApp` object; DOM updates that matter
    to behaviour (the correction panel, the text box) are state, and calls
    to the browser (recogniser, `fetch`, speech synthesis, timers) are
    effects.  A request is split at its `await`: the part before runs when
    the user acts, the part after runs when the response arrives, so other
    events may happen in between. */
module WebClient {
  import opened Wrappers
  import opened Strings
  import opened MessageTypes
  import opened ChineseDetector

  const FallbackText: string := "抱歉，出现了错误。请再试一次。"
  const FallbackTranslation: string := "Sorry, there was an error. Please try again."
  const WeatherTopic: string := "我们聊聊今天的天气吧？"
  const WeatherTranslation: string := "How about we talk about today's weather?"
  const InterjectionHelp: string := "interjection_help"
  const InterjectionDisplayMs: nat := 15000
  const CorrectionDisplayMs: nat := 10000
  const SpeechLocale: string := "zh-CN"
  const SpeechRate: real := 0.8
  const SpeechPitch: real := 1.0

  datatype Web = Web(
    hasRecognition: bool,
    hasSynthesis: bool,
    history: seq<Message>,
    isListening: bool,
    finalTranscript: string,
    recordedMessage: string,
    isProcessing: bool,
    textInput: string,
    correctionVisible: bool)

  datatype Effect =
    | RecognitionStart
    | RecognitionStop
    | PostChat(message: string, history: seq<Message>)
    | GetTopic
    | SynthesisCancel
    | SynthesisSpeak(text: string, lang: string, rate: real, pitch: real)
    | ShowCorrection(kind: string)
    | ScheduleHide(delayMs: nat)

  datatype Out = Out(state: Web, effects: seq<Effect>)

  /** The only field of a correction the client's logic reads. */
  datatype WebCorrection = WebCorrection(kind: string)

  /** The outcome of the chat `fetch`: `HttpFailure` covers a rejected
      fetch, a non-OK status and an unparsable body.  `error` is `None` when
      absent and, like an empty one, falsy; an absent `response` is the
      empty string, also falsy. */
  datatype ChatResponse =
    | HttpFailure
    | ChatBody(error: Option<string>, response: string, translation: Option<string>, correction: Option<WebCorrection>)

  datatype TopicResponse =
    | TopicHttpFailure
    | TopicBody(error: Option<string>, topic: string, translation: Option<string>)

  /** The client's own Chinese test, used to decide whether an AI message
      gets a replay button: only the CJK Unified Ideographs block. */
  predicate WebContainsChinese(s: string) {
    exists i :: 0 <= i < |s| && '\U{4E00}' <= s[i] <= '\U{9FFF}'
  }

  /** The web test is strictly narrower than the React Native one: it
      misses Extension A ideographs such as U+3400. */
  lemma WebContainsChineseNarrower(s: string)
    ensures WebContainsChinese(s) ==> ContainsChinese(s)
    ensures !WebContainsChinese("\U{3400}") && ContainsChinese("\U{3400}")
  {
    assert "\U{3400}"[0] == '\U{3400}';
  }

  /** An AI message that passes the web Chinese test gets a replay button;
      clicking it speaks that message.  The result is the click's effects,
      or `None` when the message has no button. */
  function ReplayButton(w: Web, m: Message): (r: Option<seq<Effect>>)
    ensures r.Some? <==> m.sender == Ai && exists i :: 0 <= i < |m.message| && '\U{4E00}' <= m.message[i] <= '\U{9FFF}'
    ensures r.Some? ==> r.value == SpeakText(w, m.message)
  {
    if m.sender == Ai && WebContainsChinese(m.message) then Some(SpeakText(w, m.message)) else None
  }

  /** With speech synthesis present a replay button is never silent: the
      ideograph that earned the button survives the filter, so the click
      cancels pending speech and speaks the filtered message. */
  lemma ReplayButtonSpeaks(w: Web, m: Message)
    requires w.hasSynthesis && ReplayButton(w, m).Some?
    ensures Kept(m.message) != []
    ensures ReplayButton(w, m).value == [SynthesisCancel, SynthesisSpeak(Kept(m.message), SpeechLocale, SpeechRate, SpeechPitch)]
  {
    var i :| 0 <= i < |m.message| && '\U{4E00}' <= m.message[i] <= '\U{9FFF}';
    HighNotDeleted(m.message[i]);
    KeptMembers(m.message, m.message[i]);
  }

  /** How long the correction panel stays up. */
  function DisplayTime(c: WebCorrection): (ms: nat)
    ensures ms == InterjectionDisplayMs <==> c.kind == InterjectionHelp
    ensures ms == CorrectionDisplayMs <==> c.kind != InterjectionHelp
  {
    if c.kind == InterjectionHelp then InterjectionDisplayMs else CorrectionDisplayMs
  }

  /** `speakText`: with no synthesis object nothing happens; the text is
      filtered with the same class as `extractChinese`, nothing is spoken
      when that leaves nothing, and otherwise pending speech is cancelled
      before one utterance in `zh-CN` at rate 0.8 and pitch 1. */
  function SpeakText(w: Web, text: string): (e: seq<Effect>)
    ensures e == [] <==> !w.hasSynthesis || Kept(text) == []
    ensures e != [] ==> e == [SynthesisCancel, SynthesisSpeak(Kept(text), SpeechLocale, SpeechRate, SpeechPitch)]
  {
    if !w.hasSynthesis then []
    else
      var chineseOnly := ExtractChinese(text);
      if chineseOnly == [] then []
      else [SynthesisCancel, SynthesisSpeak(chineseOnly, SpeechLocale, SpeechRate, SpeechPitch)]
  }

  /** `speakLastMessage`: speaks the most recent AI message, or nothing when
      the history has none. */
  function SpeakLastMessage(w: Web): (o: Out)
    ensures o.state == w
    ensures (forall i :: 0 <= i < |w.history| ==> w.history[i].sender != Ai) ==> o.effects == []
    ensures LastAiIndex(w.history).Some? ==> o.effects == SpeakText(w, w.history[LastAiIndex(w.history).value].message)
  {
    match LastAiText(w.history)
    case None => Out(w, [])
    case Some(text) => Out(w, SpeakText(w, text))
  }

  /** `startListening`: only with a recogniser and when not already
      listening; it marks listening and starts a fresh final transcript. */
  function StartListening(w: Web): (o: Out)
    ensures !(w.hasRecognition && !w.isListening) ==> o == Out(w, [])
    ensures w.hasRecognition && !w.isListening ==>
              o == Out(w.(isListening := true, finalTranscript := []), [RecognitionStart])
  {
    if w.hasRecognition && !w.isListening then
      Out(w.(isListening := true, finalTranscript := []), [RecognitionStart])
    else
      Out(w, [])
  }

  /** `stopListening`: asks the recogniser to stop; the state changes when
      it reports the end. */
  function StopListening(w: Web): (o: Out)
    ensures o.state == w
    ensures o.effects == [] <==> !(w.hasRecognition && w.isListening)
    ensures w.hasRecognition && w.isListening ==> o.effects == [RecognitionStop]
  {
    if w.hasRecognition && w.isListening then Out(w, [RecognitionStop]) else Out(w, [])
  }

  /** One entry of a recognition event's result list (its best
      alternative). */
  datatype RecognitionResult = RecognitionResult(transcript: string, isFinal: bool)

  /** Reference definition: what a run of results contributes to the final
      transcript, each final result's text followed by one space. */
  function Finals(rs: seq<RecognitionResult>): string
    decreases |rs|
  {
    if rs == [] then []
    else Finals(rs[..|rs| - 1]) + (if rs[|rs| - 1].isFinal then rs[|rs| - 1].transcript + " " else [])
  }

  /** Interim results never enter the final transcript. */
  lemma {:induction false} FinalsIgnoresInterim(rs: seq<RecognitionResult>)
    requires forall i :: 0 <= i < |rs| ==> !rs[i].isFinal
    ensures Finals(rs) == []
    decreases |rs|
  {
    if rs != [] {
      FinalsIgnoresInterim(rs[..|rs| - 1]);
    }
  }

  /** The contribution of consecutive runs is the concatenation. */
  lemma {:induction false} FinalsAppend(a: seq<RecognitionResult>, b: seq<RecognitionResult>)
    ensures Finals(a + b) == Finals(a) + Finals(b)
    decreases |b|
  {
    if b == [] {
      assert a + b == a;
    } else {
      assert (a + b)[..|a + b| - 1] == a + b[..|b| - 1];
      FinalsAppend(a, b[..|b| - 1]);
    }
  }

  /** `onresult`: walks the results from `resultIndex` in order and appends
      each final transcript plus one space; interim text is only shown. */
  method OnResult(w: Web, resultIndex: nat, results: seq<RecognitionResult>) returns (w': Web)
    ensures resultIndex < |results| ==>
              w' == w.(finalTranscript := w.finalTranscript + Finals(results[resultIndex..]))
    ensures resultIndex >= |results| ==> w' == w
  {
    var finalTranscript := w.finalTranscript;
    var i := resultIndex;
    while i < |results|
      invariant resultIndex < |results| ==> resultIndex <= i <= |results|
      invariant resultIndex < |results| ==>
                  finalTranscript == w.finalTranscript + Finals(results[resultIndex..i])
      invariant resultIndex >= |results| ==> finalTranscript == w.finalTranscript
    {
      assert results[resultIndex..i + 1][..i - resultIndex] == results[resultIndex..i];
      if results[i].isFinal {
        finalTranscript := finalTranscript + results[i].transcript + " ";
      }
      i := i + 1;
    }
    if resultIndex < |results| {
      assert results[resultIndex..i] == results[resultIndex..];
    }
    w' := w.(finalTranscript := finalTranscript);
  }

  /** `onend`: listening stops; a transcript that is not blank becomes the
      recorded message, trimmed, and the final transcript starts over; a
      blank one leaves both as they were. */
  function OnEnd(w: Web): (r: Web)
    ensures !r.isListening
    ensures JsTrim(w.finalTranscript) != [] ==>
              r == w.(isListening := false, recordedMessage := JsTrim(w.finalTranscript), finalTranscript := [])
    ensures JsTrim(w.finalTranscript) == [] ==> r == w.(isListening := false)
  {
    var t := JsTrim(w.finalTranscript);
    if t != [] then w.(isListening := false, recordedMessage := t, finalTranscript := [])
    else w.(isListening := false)
  }

  /** `onerror`: only the listening flag is cleared. */
  function OnError(w: Web): (r: Web)
    ensures r == w.(isListening := false)
  {
    w.(isListening := false)
  }

  /** The synchronous part of `processUserMessage`: a call while a request
      is in flight is ignored; otherwise the flag is raised and the user
      message is pushed before the request is sent, so the history the
      request carries already ends with it. */
  function BeginUserMessage(w: Web, message: string, userTime: Timestamp): (o: Out)
    ensures w.isProcessing ==> o == Out(w, [])
    ensures !w.isProcessing ==>
      && o.state.isProcessing
      && o.state.history == w.history + [Message(User, message, None, userTime)]
      && o.effects == [PostChat(message, o.state.history)]
      && o.state.(isProcessing := w.isProcessing, history := w.history) == w
  {
    if w.isProcessing then Out(w, [])
    else
      var w1 := w.(isProcessing := true, history := w.history + [Message(User, message, None, userTime)]);
      Out(w1, [PostChat(message, w1.history)])
  }

  /** The response is usable only with an OK status, no `error` and a
      truthy `response`. */
  predicate ChatUsable(r: ChatResponse) {
    r.ChatBody? && !Truthy(r.error) && r.response != []
  }

  /** The part of `processUserMessage` after the response: exactly one AI
      message is pushed, the reply or else the fixed fallback; a correction
      shows the panel and schedules its hiding; the reply is spoken when
      the auto-speak box is checked; the flag is lowered. */
  function CompleteUserMessage(w: Web, response: ChatResponse, autoSpeak: bool, replyTime: Timestamp): (o: Out)
    ensures !o.state.isProcessing
    ensures |o.state.history| == |w.history| + 1 && o.state.history[..|w.history|] == w.history
    ensures ChatUsable(response) ==>
              o.state.history[|w.history|] == Message(Ai, response.response, response.translation, replyTime)
    ensures !ChatUsable(response) ==>
              o.state.history[|w.history|] == Message(Ai, FallbackText, Some(FallbackTranslation), replyTime)
              && o.effects == [] && o.state.correctionVisible == w.correctionVisible
    ensures ChatUsable(response) ==>
              |o.effects| == (if response.correction.Some? then 2 else 0)
                             + (if autoSpeak then |SpeakText(w, response.response)| else 0)
    ensures ChatUsable(response) && response.correction.Some? ==>
              o.state.correctionVisible
              && o.effects[0] == ShowCorrection(response.correction.value.kind)
              && o.effects[1] == ScheduleHide(DisplayTime(response.correction.value))
    ensures ChatUsable(response) && response.correction.None? ==> o.state.correctionVisible == w.correctionVisible
    ensures ChatUsable(response) && autoSpeak ==>
              |o.effects| >= |SpeakText(w, response.response)|
              && o.effects[|o.effects| - |SpeakText(w, response.response)|..] == SpeakText(w, response.response)
    ensures !autoSpeak ==> forall k :: 0 <= k < |o.effects| ==> !o.effects[k].SynthesisSpeak? && !o.effects[k].SynthesisCancel?
    ensures o.state.(isProcessing := w.isProcessing, history := w.history, correctionVisible := w.correctionVisible) == w
  {
    Out(ReplyState(w, response, replyTime),
        if ChatUsable(response) then ReplyEffects(w, response.response, response.correction, autoSpeak) else [])
  }

  /** The page after a response: the flag is lowered, one AI message (the
      reply, or the fallback for an unusable response) is pushed, and the
      correction panel is shown when a usable reply carries a correction. */
  function ReplyState(w: Web, response: ChatResponse, replyTime: Timestamp): (r: Web)
    ensures !r.isProcessing
    ensures r.history == w.history + [if ChatUsable(response) then Message(Ai, response.response, response.translation, replyTime)
                                      else Message(Ai, FallbackText, Some(FallbackTranslation), replyTime)]
    ensures r.correctionVisible == (w.correctionVisible || (ChatUsable(response) && response.correction.Some?))
    ensures r.(isProcessing := w.isProcessing, history := w.history, correctionVisible := w.correctionVisible) == w
  {
    var usable := ChatUsable(response);
    var reply := if usable then Message(Ai, response.response, response.translation, replyTime)
                 else Message(Ai, FallbackText, Some(FallbackTranslation), replyTime);
    w.(isProcessing := false, history := w.history + [reply],
       correctionVisible := w.correctionVisible || (usable && response.correction.Some?))
  }

  /** What a usable reply triggers: a correction is shown and its hiding
      scheduled, then, with auto-speak on, the reply is spoken. */
  function ReplyEffects(w: Web, reply: string, correction: Option<WebCorrection>, autoSpeak: bool): (e: seq<Effect>)
    ensures |e| == (if correction.Some? then 2 else 0) + (if autoSpeak then |SpeakText(w, reply)| else 0)
    ensures correction.Some? ==>
              e[0] == ShowCorrection(correction.value.kind) && e[1] == ScheduleHide(DisplayTime(correction.value))
    ensures autoSpeak ==> |e| >= |SpeakText(w, reply)| && e[|e| - |SpeakText(w, reply)|..] == SpeakText(w, reply)
    ensures !autoSpeak ==> forall k :: 0 <= k < |e| ==> !e[k].SynthesisSpeak? && !e[k].SynthesisCancel?
  {
    var shown := match correction
      case Some(c) => [ShowCorrection(c.kind), ScheduleHide(DisplayTime(c))]
      case None => [];
    var speech := if autoSpeak then SpeakText(w, reply) else [];
    assert (shown + speech)[|shown|..] == speech;
    shown + speech
  }

  /** `processUserMessage` from call to response, with nothing in between. */
  function ProcessUserMessage(w: Web, message: string, response: ChatResponse, autoSpeak: bool,
                              userTime: Timestamp, replyTime: Timestamp): (o: Out)
    ensures w.isProcessing ==> o == Out(w, [])
    ensures !w.isProcessing ==>
      && |o.state.history| == |w.history| + 2 && o.state.history[..|w.history|] == w.history
      && o.state.history[|w.history|] == Message(User, message, None, userTime)
      && o.state.history[|w.history| + 1].sender == Ai
      && !o.state.isProcessing
      && |o.effects| > 0
      && o.effects[0] == PostChat(message, w.history + [Message(User, message, None, userTime)])
  {
    var b := BeginUserMessage(w, message, userTime);
    if w.isProcessing then b
    else
      var c := CompleteUserMessage(b.state, response, autoSpeak, replyTime);
      Out(c.state, b.effects + c.effects)
  }

  /** `sendTextMessage`: the box's content, trimmed, is sent when not blank,
      and the box is emptied even if a request in flight makes the send a
      no-op. */
  function SendTextMessage(w: Web, userTime: Timestamp): (o: Out)
    ensures JsTrim(w.textInput) == [] ==> o == Out(w, [])
    ensures JsTrim(w.textInput) != [] ==>
              o.state.textInput == [] && o == Out(BeginUserMessage(w, JsTrim(w.textInput), userTime).state.(textInput := []),
                                                  BeginUserMessage(w, JsTrim(w.textInput), userTime).effects)
  {
    var message := JsTrim(w.textInput);
    if message == [] then Out(w, [])
    else
      var b := BeginUserMessage(w, message, userTime);
      Out(b.state.(textInput := []), b.effects)
  }

  /** `sendRecordedMessage`: nothing without a recorded message; otherwise
      the message is submitted and then cleared, even when the submission
      was ignored because a request is in flight. */
  function SendRecordedMessage(w: Web, userTime: Timestamp): (o: Out)
    ensures w.recordedMessage == [] ==> o == Out(w, [])
    ensures w.recordedMessage != [] ==> o.state.recordedMessage == []
    ensures w.recordedMessage != [] && !w.isProcessing ==>
              o.state.history == w.history + [Message(User, w.recordedMessage, None, userTime)]
              && o.effects == [PostChat(w.recordedMessage, o.state.history)]
    ensures w.recordedMessage != [] && w.isProcessing ==>
              o.state == w.(recordedMessage := []) && o.effects == []
  {
    if w.recordedMessage == [] then Out(w, [])
    else
      var b := BeginUserMessage(w, w.recordedMessage, userTime);
      Out(ClearRecordedMessage(b.state), b.effects)
  }

  /** `clearRecordedMessage`: drops the recorded message and nothing else. */
  function ClearRecordedMessage(w: Web): (r: Web)
    ensures r.recordedMessage == [] && r.(recordedMessage := w.recordedMessage) == w
  {
    w.(recordedMessage := [])
  }

  /** `redoRecording`: the recorded message is dropped, then listening
      starts as `startListening` would. */
  function RedoRecording(w: Web): (o: Out)
    ensures o.state.recordedMessage == []
    ensures o == StartListening(ClearRecordedMessage(w))
  {
    StartListening(ClearRecordedMessage(w))
  }

  /** `getRandomTopic`, up to its request: no processing guard at all. */
  function BeginRandomTopic(w: Web): (o: Out)
    ensures o == Out(w, [GetTopic])
  {
    Out(w, [GetTopic])
  }

  /** `getRandomTopic` after the response: always exactly one AI message,
      the topic with its translation or else the fixed weather topic;
      the topic is spoken when the box is checked and it is not empty.  The
      processing flag is neither read nor written. */
  function CompleteRandomTopic(w: Web, response: TopicResponse, autoSpeak: bool, replyTime: Timestamp): (o: Out)
    ensures |o.state.history| == |w.history| + 1 && o.state.history[..|w.history|] == w.history
    ensures response.TopicBody? && !Truthy(response.error) ==>
              o.state.history[|w.history|] == Message(Ai, response.topic, response.translation, replyTime)
    ensures response.TopicBody? && !Truthy(response.error) && autoSpeak && response.topic != [] ==>
              o.effects == SpeakText(w, response.topic)
    ensures !autoSpeak || (response.TopicBody? && response.topic == []) ==> o.effects == []
    ensures !(response.TopicBody? && !Truthy(response.error)) ==>
              o.state.history[|w.history|] == Message(Ai, WeatherTopic, Some(WeatherTranslation), replyTime)
              && o.effects == []
    ensures o.state.(history := w.history) == w
  {
    var usable := response.TopicBody? && !Truthy(response.error);
    var added := if usable then Message(Ai, response.topic, response.translation, replyTime)
                 else Message(Ai, WeatherTopic, Some(WeatherTranslation), replyTime);
    Out(w.(history := w.history + [added]), TopicEffects(w, response, autoSpeak))
  }

  /** What a topic response triggers: speech of the topic, only for a
      usable response with the box checked and a truthy topic. */
  function TopicEffects(w: Web, response: TopicResponse, autoSpeak: bool): (e: seq<Effect>)
    ensures response.TopicBody? && !Truthy(response.error) && autoSpeak && response.topic != [] ==>
              e == SpeakText(w, response.topic)
    ensures !(response.TopicBody? && !Truthy(response.error) && autoSpeak && response.topic != []) ==> e == []
  {
    if response.TopicBody? && !Truthy(response.error) && autoSpeak && response.topic != [] then SpeakText(w, response.topic)
    else []
  }

  /** `clearConversation`, given the answer to the confirmation dialog. */
  function ClearConversation(w: Web, confirmed: bool): (o: Out)
    ensures !confirmed ==> o == Out(w, [])
    ensures confirmed ==> o.state.history == [] && !o.state.correctionVisible
    ensures o.state.(history := w.history, correctionVisible := w.correctionVisible) == w
  {
    if confirmed then Out(w.(history := [], correctionVisible := false), []) else Out(w, [])
  }

  /** The scheduled hiding of the correction panel. */
  function HideCorrectionFired(w: Web): (r: Web)
    ensures !r.correctionVisible && r.(correctionVisible := w.correctionVisible) == w
  {
    w.(correctionVisible := false)
  }

  /** Because `getRandomTopic` has no guard, a topic can arrive while a chat
      request is in flight: it lands between the user's message and the
      reply to it. */
  lemma TopicInterleavesWithChat(w: Web, m: string, topic: string, reply: string, t1: Timestamp, t2: Timestamp, t3: Timestamp)
    requires !w.isProcessing && reply != []
    ensures var a := BeginUserMessage(w, m, t1).state;
            var b := CompleteRandomTopic(BeginRandomTopic(a).state, TopicBody(None, topic, None), false, t2).state;
            var c := CompleteUserMessage(b, ChatBody(None, reply, None, None), false, t3).state;
            c.history == w.history + [Message(User, m, None, t1), Message(Ai, topic, None, t2), Message(Ai, reply, None, t3)]
  {
  }

  /** The record, review, send cycle: listening starts afresh, the final
      results accumulate, the end of recognition files the trimmed
      transcript for review, and sending it submits exactly that text. */
  lemma RecordReviewSend(w: Web, rs: seq<RecognitionResult>, userTime: Timestamp)
    requires w.hasRecognition && !w.isListening && !w.isProcessing
    requires JsTrim(Finals(rs)) != []
    ensures var a := StartListening(w).state;
            var b := a.(finalTranscript := a.finalTranscript + Finals(rs));
            var c := OnEnd(b);
            var d := SendRecordedMessage(c, userTime);
            && c.recordedMessage == JsTrim(Finals(rs)) && c.finalTranscript == []
            && d.state.history == w.history + [Message(User, JsTrim(Finals(rs)), None, userTime)]
            && d.effects == [PostChat(JsTrim(Finals(rs)), d.state.history)]
            && d.state.recordedMessage == [] && d.state.isProcessing
  {
    assert StartListening(w).state.finalTranscript + Finals(rs) == Finals(rs);
  }

  /** Redo throws the transcript away and listens again. */
  lemma RedoDiscardsTranscript(w: Web)
    requires w.hasRecognition && !w.isListening
    ensures var o := RedoRecording(w);
            o.state.recordedMessage == [] && o.state.isListening && o.state.history == w.history
            && o.effects == [RecognitionStart]
  {
  }
}

=== FILE: wrappers.dfy ===
/** The optional-value wrapper used wherever the source has `null`, `undefined`
    or `None`. */
module Wrappers {

  datatype Option<+T> = None | Some(value: T) {

    /** The wrapped value, or `default` when absent. */
    function GetOr(default: T): T {
      match this
      case Some(v) => v
      case None => default
    }
  }
}
